=== FILE: README.md ===
# Account shop bot: stock, payments, delivery and order ledger

This project models the sale-and-delivery core of `bot.py`, a Discord bot
that sells game accounts paid for in Robux. The bot keeps three in-memory
containers:

- `stock`: an ordered list of accounts, each a username, a password and a
  cookie.
- `used_purchase_ids`: the set of sale ids that have already paid for a
  delivery.
- `purchase_history`: a dict from Discord user id to that buyer's order
  records.

The model covers the following, in one module per component:

- **`StockPool`**: front withdrawal, compensation by re-appending, the
  admin append, the case-insensitive removal of the first match, clearing,
  and the ten-name preview.
- **`AdminEntry`**: the `/addstock` parser, built on a model of Python's
  `str.split(':', 2)`.
- **`Payments`**: `check_user_purchase`, a scan of one sale-feed snapshot,
  and the used-id set with its start-up seeding.
- **`OrderLedger`**: the purchase history as an insertion-ordered sequence
  of (buyer, orders) entries. Python dicts iterate in insertion order, and
  `/orderid` and `/topbuyers` depend on it.
- **`Reports`**: the read-only views `/topbuyers`, `/customerinfo` and
  `/orderid`, and the ten-per-page split of `/purchasehistory`.
- **`StockChannel`**: the stock channel's name and the low-stock and
  out-of-stock alerts, as a function of the stock count.
- **`Fulfillment`**: the `/buy` checks, the `monitor_and_deliver` polling
  loop with its delivery and compensation, and the free `/test` delivery.

The bot runs on one cooperative asyncio loop. No `await` separates the
purchase check from claiming its id, nor the stock length check from the
withdrawal, so each of those steps is one sequential state change. A whole
monitor run, however, contains awaits: the thirty-second sleep between
polls and the Discord calls between the withdrawal and the compensation.
Other commands and other monitors can run there. The model runs each
monitor as one step at its confirmation; "## Left out" says what that
leaves out.

The monitor runs over a sequence of feed snapshots, one per poll. A
missing snapshot is an empty feed, which is what `get_recent_sales` returns
when the request fails.

How the Discord side of a delivery went is a parameter, `Delivery`. It is
either `Sent`, when everything went through, or `Failed(at, handlerRaised)`.
`at` is the stage of the delivery block (bot.py:284-386) that raised:
- `BeforeDm`: opening the DM channel, building the files or sending the
  DM (bot.py:285-304).
- `BeforeRecord`: after the DM, while building the order record
  (bot.py:316-325). For example, `sale.get('currency', {}).get('amount', 0)`
  raises for a sale whose `currency` is null. By then bot.py:313-314 have
  already made the buyer a key of `purchase_history`, with an empty list
  for a new buyer.
- `AfterRecord`: the confirmation follow-up (bot.py:372) or the webhook
  post (bot.py:384), after the order was filed.

Both exception handlers send a follow-up before `stock.extend(accounts)`
(bot.py:390 before 392, and 397 before 398). `handlerRaised` says that this
follow-up raised too, so the accounts were never put back.

Once the DM went out, the buyer is a key of the history. The order is
filed when the delivery was `Sent` or failed `AfterRecord`. After a
`BeforeRecord` failure, a new buyer therefore stays in the history with no
orders. `Fulfillment.FailedRecordListsEmptyBuyer` shows the effect on one
run: `/topbuyers` lists that buyer with zero totals, and `/customerinfo`
finds them with zero totals and no recent orders.
The accounts are put back exactly when a failure's handler did not raise.
`Fulfillment.DeliverConservation` and `Fulfillment.MonitorConservation`
track stock plus the accounts the history lists as delivered:
- It is conserved when exactly one of "filed" and "put back" happened.
- It counts the handed-out accounts twice after a failure `AfterRecord`
  whose handler went through: they were sent and recorded, and they are
  back in stock.
- It loses them when neither happened: the failure came before the order
  was filed and the handler's follow-up raised.

`Fulfillment.HandlerFailureLosesAccount` shows the loss on one account.
`Fulfillment.SentAccountsRestocked` shows the other hazard: after any
failure once the DM went out whose handler's follow-up went through,
accounts the buyer already received are back in stock for sale. This includes a `BeforeRecord` failure, where the
balance itself looks conserved.

Nothing sets stock aside between `/buy` and the payment.
`Fulfillment.SecondBuyerFindsStockDepleted` shows the consequence on a
concrete run. Two buyers pass the stock check for the last account and
both pay. The second payment's id is consumed, and that buyer gets "Stock
depleted".

## Model

| member | source | states |
|---|---|---|
| StockPool.Withdraw | bot.py:276-280 | Fails exactly when stock holds fewer than `quantity` accounts. Otherwise it hands out exactly `quantity` accounts, and those followed by what stays are the original stock: the first accounts, in order, with the suffix untouched. |
| StockPool.Restore | bot.py:395-400 | The compensation puts the remainder first and the handed-out accounts after it, in their order. |
| StockPool.WithdrawThenRestore | bot.py:388-400 | A withdrawal followed by its compensation gives the same count and the same multiset of accounts. The first `quantity` accounts are rotated to the back. |
| StockPool.Append | bot.py:422-426 | The admin append keeps every earlier account in place and adds the new one as the last. |
| StockPool.FindAccount | bot.py:464-466 | Finds the first position whose username equals the name ignoring case. Finds nothing exactly when no account matches. |
| StockPool.RemoveByUsername | bot.py:463-475 | Removes nothing, and leaves stock unchanged, exactly when no username matches. Otherwise it removes the first match only, and every other account keeps its order. |
| StockPool.Clear | bot.py:687-688 | Leaves stock empty and reports as removed the count that stock held. |
| StockChannel.ClearShowsOutOfStock | bot.py:687-709 | After /clearstock, the channel shows the out-of-stock name its confirmation prompt announces, and the out-of-stock alert fires. |
| StockPool.StockPreview | bot.py:447-450 | No listing for empty stock. Otherwise at most ten usernames of the first accounts, in stock order. "N more" is reported only when ten are shown, and shown plus more equals the stock count. |
| AdminEntry.Split | bot.py:416 | `split(':', 2)` gives between one and three parts. |
| AdminEntry.SplitJoins | bot.py:416 | Joining the parts of a split with ':' gives the original text back. |
| AdminEntry.SplitFromSeparators | bot.py:416 | Every part but the last is free of ':'. The last part is too when the split stopped short of its limit. |
| AdminEntry.ParseEntry | bot.py:416-421 | Accepts the entry exactly when it holds at least two ':'. Username and password then hold no ':', and username:password:cookie rebuilds the entry. |
| AdminEntry.ParseEntryRoundTrip | bot.py:416-426 | An account whose username and password hold no ':' parses back from its entry text to itself. The cookie may hold ':'. |
| AdminEntry.AddStock | bot.py:415-426 | Accepted exactly when the entry holds two ':'. A rejected entry leaves stock unchanged. An accepted one is appended last with fields that rebuild the entry. |
| Payments.CheckUserPurchase | bot.py:143-159 | Finds nothing exactly when no sale in the snapshot is unused and paid by `user_id`. Otherwise it returns the first such sale in feed order. |
| Payments.Claim | bot.py:270-271 | Confirming a sale only adds ids, and adds exactly that sale's id. |
| Payments.SeedUsed | bot.py:166-173 | Seeding only adds ids. After it every fetched sale's id is used, and nothing but those ids is added. |
| Payments.UsedIdNeverMatches | bot.py:147-154 | Once an id is used, no purchase check for any buyer over any feed returns a sale with that id. |
| Payments.MoreUsedFewerMatches | bot.py:150-151 | Growing the used set never turns "no purchase found" into a match. |
| OrderLedger.Lookup | bot.py:533-537 | Finds nothing exactly when the buyer has no history. Otherwise it returns that buyer's list. |
| OrderLedger.Record | bot.py:313-326 | A buyer already in the ledger keeps the key order. A new buyer becomes the last key. |
| OrderLedger.RecordAppendsOrder | bot.py:313-326 | After recording, the buyer's list is the old list, or the empty one for a new buyer, followed by the new order. |
| OrderLedger.RecordKeepsOthers | bot.py:313-326 | Recording for one buyer leaves every other buyer's list as it was. |
| OrderLedger.Open | bot.py:313-314 | A buyer already in the ledger keeps the key order. A new buyer becomes the last key. |
| OrderLedger.OpenKeepsOrders | bot.py:313-314 | Making a buyer a key changes no buyer's list, leaves every other buyer's lookup as it was, and the buyer is found afterwards. |
| OrderLedger.OpenAddsNoAccounts | bot.py:313-314 | Making a buyer a key adds no delivered account. |
| OrderLedger.RecordNewBuyer | bot.py:313-326 | A buyer not yet in the ledger gets a new last entry holding just the new order. |
| OrderLedger.RecordAfterOpen | bot.py:313-326 | Making the buyer a key and then appending the order gives the same ledger as recording the order. |
| OrderLedger.RecordKeepsUnique | bot.py:313-314 | Recording keeps the ledger's keys distinct. |
| OrderLedger.TotalsAppend | bot.py:490-491 | The account and Robux sums grow by exactly an appended order's quantity and Robux. |
| OrderLedger.RecordUpdatesTotals | bot.py:488-497 | Recording an order raises the buyer's account total, Robux total and order count by that order's quantity, its Robux and one. Every other buyer's totals stay as they were. |
| OrderLedger.RecordAddsAccounts | bot.py:316-326 | Recording an order adds exactly its accounts to those the ledger lists as delivered. |
| Reports.Insert | bot.py:500 | Inserting into a list sorted by Robux, highest first, keeps it sorted and adds one element. |
| Reports.InsertPermutes | bot.py:500 | Insertion adds the element and loses nothing. |
| Reports.SortByRobux | bot.py:500 | The sort is a permutation of its input, ordered by Robux with the highest first. |
| Reports.TopBuyers | bot.py:483-508 | No report for an empty history. Otherwise it shows the smaller of ten and the buyer count, sorted by Robux with the highest first. |
| Reports.TopBuyersFromLedger | bot.py:488-508 | Every buyer shown comes from the ledger with its own totals. With at most ten buyers, the shown list is a permutation of all of them. |
| Reports.TopBuyersDominate | bot.py:499-508 | No buyer cut from the top ten spent more Robux than any buyer shown. |
| Reports.PrefixDominates | bot.py:508 | Cutting a sorted list after ten keeps the largest: nothing after the cut exceeds anything before it. |
| Reports.Recent | bot.py:552-554 | At most five orders, newest first: the i-th shown is the i-th from the end. |
| Reports.CustomerInfo | bot.py:533-554 | No report exactly for a buyer without history. Otherwise it gives the buyer's ledger totals and that buyer's last five orders, newest first. |
| Reports.FindInOrders | bot.py:579-583 | The first order in a list whose id equals the searched id ignoring case. Nothing exactly when none does. |
| Reports.FindOrder | bot.py:574-589 | Nothing exactly when no order of any buyer matches. Otherwise it returns a matching order, with no match earlier in the key-then-list scan. |
| Reports.Paginate | bot.py:877-878 | Every page holds between one and ten purchases. |
| Reports.PaginateSound | bot.py:877-893 | The pages concatenate back to the listing and every page but the last is full. Their number is the footer's `(len - 1) // 10 + 1`. |
| Reports.PaginatePages | bot.py:877-878 | Page k is exactly the slice starting at 10·k with at most ten purchases. |
| StockChannel.LevelOf | bot.py:71-80 | The out-of-stock band is exactly zero, the low band exactly one to three, and the healthy band exactly four or more. |
| StockChannel.ChannelName | bot.py:69-80 | The name opens with the colour circle of the count's band. |
| StockChannel.ChannelNameInjective | bot.py:69-80 | Distinct stock counts never give the same channel name. |
| StockChannel.AlertFor | bot.py:86-107 | An out-of-stock alert exactly at zero and a low-stock alert carrying the count exactly for one to three. No alert exactly when the channel is in the healthy band. |
| Common.DecimalRoundTrip | bot.py:80 | A count rendered in decimal reads back as the same count. |
| Fulfillment.Deliver | bot.py:276-400 | The used set is untouched. It ends with "Stock depleted" exactly when stock is short, and then nothing changes. When the accounts are not put back, stock loses exactly its first `quantity` accounts. When they are put back, stock is the remainder followed by them, the same multiset. Once the DM went out, a new buyer becomes the last key. A filed order is appended to the buyer's list. A failure after the DM but before filing leaves every buyer's list as it was, and the buyer's own entry exists, empty if new. A failure before the DM leaves the history as it was. No other buyer's list changes. |
| Fulfillment.DeliverConservation | bot.py:280-400 | Stock plus delivered accounts is unchanged when exactly one of "order filed" and "accounts put back" happened. It gains the handed-out accounts when both happened, a failure after the order was filed. It loses them when neither happened, a failure before filing whose handler follow-up raised. |
| Fulfillment.SentAccountsRestocked | bot.py:395-398 | Once the DM went out, a failure whose handler goes through puts accounts the buyer already received back into stock. |
| Fulfillment.HandlerFailureLosesAccount | bot.py:388-392 | One account, a refused DM and a raising handler follow-up: the account is neither in stock nor in the history. |
| Fulfillment.FailedRecordListsEmptyBuyer | bot.py:313-325 | One account and a new buyer. The order record fails after the DM, and the handler puts the account back. The buyer stays in the history with an empty list, `/topbuyers` lists them with zero totals, and `/customerinfo` shows zero totals and no recent orders. |
| Fulfillment.FirstHit | bot.py:265-268 | A confirmation, if any, falls on a poll that remains to be made. |
| Fulfillment.FirstHitSpec | bot.py:265-268 | The loop finds nothing exactly when no remaining poll finds a sale. Otherwise it stops on a poll that found one, with none before it. |
| Fulfillment.FirstConfirmation | bot.py:262-268 | A confirmation falls on one of the sixty polls. |
| Fulfillment.Confirm | bot.py:268-280 | A confirmed sale counts as a poll and claims exactly its id. The stock check fails exactly when stock is short, and then stock and history are untouched. |
| Fulfillment.MonitorSpec | bot.py:262-278 | At most sixty polls, and the used set only grows. A timeout exactly when no poll found a payment, and then nothing changes. A confirmation falls on the first poll that found an unused sale of this buyer and claims exactly that sale's id. "Stock depleted" exactly when that confirmation met short stock, and then only the id is consumed. |
| Fulfillment.WaitForPayment | bot.py:262-268 | The bounded loop, with one check per attempt and the attempt counter rising to sixty. It stops at the first confirming poll. |
| Fulfillment.ConfirmAndDeliver | bot.py:269-400 | The imperative confirming step computes what `Confirm` specifies. It claims the id, checks the length and takes from the front. Once the DM went out it makes the buyer a key, then files the order if the block got that far. It puts the accounts back if the handler reached `stock.extend`. |
| Fulfillment.MonitorAndDeliver | bot.py:256-406 | The whole imperative monitor computes the run that `MonitorSpec` characterises. |
| Fulfillment.MonitorConservation | bot.py:256-406 | Over a whole monitor, accounts are conserved unless the delivery failed and its compensation went wrong. Filed and put back counts them twice. Neither filed nor put back loses them. |
| Fulfillment.NoDoubleSpend | bot.py:266-271 | Two successive monitors, for any buyers and any feeds, never both confirm sales with the same id. |
| Fulfillment.CheckBuy | bot.py:197-208 | "User not found" exactly when the Roblox id is missing or zero. "Not enough stock" exactly when the user is known and stock is short. A monitor starts only with the found id and enough stock. |
| Fulfillment.SecondBuyerFindsStockDepleted | bot.py:203-280 | With one account in stock, two buyers both pass the check and both pay. The second sale's id is consumed, and that monitor ends with "Stock depleted" and empty stock. |
| Fulfillment.TestDelivery | bot.py:730-796 | "Not enough stock" exactly when stock is short, and stock is then unchanged. A successful test hands out the first accounts. A failure, even after the DM, restores the same multiset with the handed-out accounts last. The exception is when the handler's follow-up (bot.py:786, 793) raised first, which leaves them out. |

## Left out

- The Discord layer: message and embed text, DMs, file attachments, role
  assignment, channel renames and the `ValidateView` and `ConfirmView`
  buttons. Only the decisions they act on are modelled.
- HTTP calls, which become inputs:
  - `get_roblox_user_id` is an optional user id.
  - `get_recent_sales` is a feed snapshot per poll, and an empty feed
    when absent.
  - The webhook `post` and the paging fetch of `/purchasehistory` are not
    modelled; only their page split is.
- Timing: `asyncio.sleep(30)`, `create_task` and wall-clock dates. The
  monitor is an attempt counter, and order timestamps are not stored.
- The random order id (bot.py:310) is a field of the request.
- Python's Unicode `str.lower()` and `str.upper()`: only ASCII letters are
  folded.
- Administrator permission checks, `keep_alive`/Flask and environment
  configuration: plumbing with no logic.
- Payments.CheckUserPurchase: the feed lengths the bot asks for (10 per
  poll, 50 at start-up) do not bound the snapshot, because the HTTP API
  decides how many sales come back.
- Payments.CheckUserPurchase: an exception inside the scan (bot.py:157-159)
  is modelled as a feed with no eligible sale. Both give "not purchased".
- Fulfillment.MonitorAndDeliver: a monitor is modelled as one step,
  serialized at its confirmation, and several effects of interleaving are
  not modelled:
  - Ids added to the used set while a monitor sleeps at bot.py:402 are not
    seen: those claimed by other monitors, and those a repeated run of the
    start-up seeding (bot.py:168-170) adds.
  - Stock changed by other commands during the awaits between the
    withdrawal and the compensation is not seen. These awaits are
    bot.py:281, 285, 304, 354, 367 and 372, and the handler follow-ups at
    390 and 397 that run right before `stock.extend`.
  - In bot.py, `stock.extend` appends to the stock as it is at that
    moment, while the model appends to the remainder of its own
    withdrawal.
  For matching, the serialized order loses no behaviour in one direction:
  `Payments.MoreUsedFewerMatches` shows that ids claimed in between can
  only remove matches.
- Fulfillment.Deliver: which exception raises is a parameter (`Delivery`).
  The model does not derive it from the sale record or from Discord's
  state.
- Fulfillment.CheckBuy: the repeated check when the Validate button is
  pressed (bot.py:230) is the same stock test. The pending-channel message
  it sends is not modelled.
- Reports.SortByRobux: the stability of Python's `sorted` for buyers with
  equal Robux is built into the insertion order but not stated as a
  contract.
- Reservation: bot.py sets nothing aside before polling. It only reads the
  stock length at bot.py:203 and bot.py:230, and it takes accounts only
  after the payment is confirmed at bot.py:280. The model has no
  reservation step either, so a timeout has nothing to return.

=== FILE: AdminEntry.dfy ===
/** The /addstock entry format `username:password:cookie`, parsed with
    Python's `account.split(':', 2)`. */
module AdminEntry {
  import opened Common
  import opened StockPool

  /** The field separator of an admin entry. */
  const Sep: char := ':'

  /** `s` holds no separator. */
  predicate NoSep(s: string)
  {
    forall k :: 0 <= k < |s| ==> s[k] != Sep
  }

  /** No separator at positions `a` up to, not including, `b`. */
  predicate SepFree(s: string, a: nat, b: nat)
    requires a <= b <= |s|
  {
    forall k :: a <= k < b ==> s[k] != Sep
  }

  /** The slice between two positions is separator-free exactly when the
      positions are. */
  lemma SepFreeSlice(s: string, a: nat, b: nat)
    requires a <= b <= |s|
    ensures SepFree(s, a, b) <==> NoSep(s[a..b])
  {
    assert forall k :: a <= k < b ==> s[a..b][k - a] == s[k];
  }

  /** Joins parts with the separator, the inverse of `split`. */
  function JoinParts(parts: seq<string>): string
    requires |parts| >= 1
    decreases |parts|
  {
    if |parts| == 1 then parts[0] else parts[0] + [Sep] + JoinParts(parts[1..])
  }

  /** The position of the first separator at or after `start`, if any. */
  function FirstSepFrom(s: string, start: nat): (r: Option<nat>)
    requires start <= |s|
    ensures r.None? ==> SepFree(s, start, |s|)
    ensures r.Some? ==> start <= r.value < |s| && s[r.value] == Sep && SepFree(s, start, r.value)
    decreases |s| - start
  {
    if start == |s| then None
    else if s[start] == Sep then Some(start)
    else FirstSepFrom(s, start + 1)
  }

  /** A separator at `m` with none between `start` and `m` is the one
      `FirstSepFrom` finds. */
  lemma {:induction false} FirstSepFromAt(s: string, start: nat, m: nat)
    requires start <= m < |s| && s[m] == Sep && SepFree(s, start, m)
    ensures FirstSepFrom(s, start) == Some(m)
    decreases m - start
  {
    if start < m {
      FirstSepFromAt(s, start + 1, m);
    }
  }

  /** `s[start:].split(':', maxsplit)`, scanning `s` from `start`. */
  function SplitFrom(s: string, start: nat, maxsplit: nat): (parts: seq<string>)
    requires start <= |s|
    ensures 1 <= |parts| <= maxsplit + 1
    decreases maxsplit
  {
    if maxsplit == 0 then [s[start..]]
    else
      match FirstSepFrom(s, start)
      case None => [s[start..]]
      case Some(i) => [s[start..i]] + SplitFrom(s, i + 1, maxsplit - 1)
  }

  /** Python's `s.split(':', maxsplit)`: splits at the first `maxsplit`
      separators from the left and keeps the remainder whole. */
  function Split(s: string, maxsplit: nat): (parts: seq<string>)
    ensures 1 <= |parts| <= maxsplit + 1
  {
    SplitFrom(s, 0, maxsplit)
  }

  /** A sequence from `a` on is what lies between `a` and `i`, the element
      at `i`, and what follows `i`. */
  lemma Around<T>(s: seq<T>, a: nat, i: nat)
    requires a <= i < |s|
    ensures s[a..i] + [s[i]] + s[i + 1..] == s[a..]
  {
  }

  /** Joining a head and a non-empty tail puts one separator between them. */
  lemma JoinCons(head: string, tail: seq<string>)
    requires |tail| >= 1
    ensures JoinParts([head] + tail) == head + [Sep] + JoinParts(tail)
  {
    assert ([head] + tail)[1..] == tail;
  }

  /** Splitting loses nothing: joining the parts gives the scanned text back. */
  lemma {:induction false} SplitFromJoins(s: string, start: nat, maxsplit: nat)
    requires start <= |s|
    ensures JoinParts(SplitFrom(s, start, maxsplit)) == s[start..]
    decreases maxsplit
  {
    if maxsplit > 0 && FirstSepFrom(s, start).Some? {
      var i := FirstSepFrom(s, start).value;
      var tail := SplitFrom(s, i + 1, maxsplit - 1);
      assert SplitFrom(s, start, maxsplit) == [s[start..i]] + tail;
      SplitFromJoins(s, i + 1, maxsplit - 1);
      JoinCons(s[start..i], tail);
      Around(s, start, i);
    }
  }

  /** Joining the parts of `s.split(':', maxsplit)` gives `s` back. */
  lemma SplitJoins(s: string, maxsplit: nat)
    ensures JoinParts(Split(s, maxsplit)) == s
  {
    SplitFromJoins(s, 0, maxsplit);
  }

  /** Putting a separator-free head before parts of which all but the last
      are separator-free keeps that property. */
  lemma ConsParts(head: string, tail: seq<string>, maxsplit: nat)
    requires NoSep(head) && |tail| >= 1
    requires forall k :: 0 <= k < |tail| - 1 ==> NoSep(tail[k])
    requires |tail| < maxsplit ==> NoSep(tail[|tail| - 1])
    ensures var parts := [head] + tail;
            && (forall k :: 0 <= k < |parts| - 1 ==> NoSep(parts[k]))
            && (|parts| < maxsplit + 1 ==> NoSep(parts[|parts| - 1]))
  {
    var parts := [head] + tail;
    forall k | 0 <= k < |parts| - 1
      ensures NoSep(parts[k])
    {
      if k > 0 {
        assert parts[k] == tail[k - 1];
      }
    }
    assert parts[|parts| - 1] == tail[|tail| - 1];
  }

  /** Every part but the last is free of separators, and so is the last
      when the split stopped short of `maxsplit`. */
  lemma {:induction false} SplitFromSeparators(s: string, start: nat, maxsplit: nat)
    requires start <= |s|
    ensures var parts := SplitFrom(s, start, maxsplit);
            && (forall k :: 0 <= k < |parts| - 1 ==> NoSep(parts[k]))
            && (|parts| < maxsplit + 1 ==> NoSep(parts[|parts| - 1]))
    decreases maxsplit
  {
    match FirstSepFrom(s, start)
    case None =>
      SepFreeSlice(s, start, |s|);
    case Some(i) =>
      if maxsplit > 0 {
        var tail := SplitFrom(s, i + 1, maxsplit - 1);
        assert SplitFrom(s, start, maxsplit) == [s[start..i]] + tail;
        SplitFromSeparators(s, i + 1, maxsplit - 1);
        SepFreeSlice(s, start, i);
        ConsParts(s[start..i], tail, maxsplit);
      }
  }

  /** True when `s` holds at least two separators. */
  predicate HasTwoSeps(s: string)
  {
    exists i, j :: 0 <= i < j < |s| && s[i] == Sep && s[j] == Sep
  }

  /** The text an account would be entered as. */
  function EntryText(a: Account): string
  {
    a.username + [Sep] + a.password + [Sep] + a.cookie
  }

  /** `parts = account.split(':', 2)` followed by `if len(parts) != 3`. */
  function ParseEntry(entry: string): (r: Option<Account>)
    ensures r.Some? <==> HasTwoSeps(entry)
    ensures r.Some? ==> NoSep(r.value.username) && NoSep(r.value.password)
    ensures r.Some? ==> EntryText(r.value) == entry
  {
    var parts := Split(entry, 2);
    if |parts| != 3 then
      FewPartsFewSeps(entry);
      None
    else
      ThreePartsRejoin(entry);
      Some(Account(parts[0], parts[1], parts[2]))
  }

  /** With three parts, the entry held separators at two positions and the
      parts are the text around them. */
  lemma ThreeParts(entry: string) returns (i: nat, j: nat)
    requires |Split(entry, 2)| == 3
    ensures i < j < |entry| && entry[i] == Sep && entry[j] == Sep
    ensures SepFree(entry, 0, i) && SepFree(entry, i + 1, j)
    ensures Split(entry, 2) == [entry[..i], entry[i + 1..j], entry[j + 1..]]
  {
    i := FirstSepFrom(entry, 0).value;
    j := FirstSepFrom(entry, i + 1).value;
  }

  /** With three parts, the parts rejoin to the entry, the first two hold
      no separator, and the entry held two separators. */
  lemma ThreePartsRejoin(entry: string)
    requires |Split(entry, 2)| == 3
    ensures var parts := Split(entry, 2);
            && EntryText(Account(parts[0], parts[1], parts[2])) == entry
            && NoSep(parts[0]) && NoSep(parts[1])
            && HasTwoSeps(entry)
  {
    var i, j := ThreeParts(entry);
    SepFreeSlice(entry, 0, i);
    SepFreeSlice(entry, i + 1, j);
    Around(entry, i + 1, j);
    Around(entry, 0, i);
    Regroup(entry[..i], entry[i + 1..j], entry[j + 1..], Sep);
  }

  /** `a + [x] + b + [x] + c` regrouped around its first separator. */
  lemma Regroup<T>(a: seq<T>, b: seq<T>, c: seq<T>, x: T)
    ensures a + [x] + b + [x] + c == a + [x] + (b + [x] + c)
  {
  }

  /** With fewer than three parts, `Split` saw at most one separator. */
  lemma FewPartsFewSeps(entry: string)
    requires |Split(entry, 2)| != 3
    ensures !HasTwoSeps(entry)
  {
    match FirstSepFrom(entry, 0)
    case None =>
    case Some(k) =>
      assert Split(entry, 2) == [entry[..k]] + SplitFrom(entry, k + 1, 1);
      assert FirstSepFrom(entry, k + 1).None?;
  }

  /** Parsing inverts `EntryText` for every account whose username and password
      hold no separator; the cookie may contain any text. */
  lemma ParseEntryRoundTrip(a: Account)
    requires NoSep(a.username) && NoSep(a.password)
    ensures ParseEntry(EntryText(a)) == Some(a)
  {
    var e := EntryText(a);
    var i := |a.username|;
    var j := i + 1 + |a.password|;
    assert e[..i] == a.username && e[i + 1..j] == a.password && e[j + 1..] == a.cookie;
    SepFreeSlice(e, 0, i);
    SepFreeSlice(e, i + 1, j);
    FirstSepFromAt(e, 0, i);
    FirstSepFromAt(e, i + 1, j);
    assert Split(e, 2) == [a.username, a.password, a.cookie];
  }

  /** What /addstock does to the stock, and whether it accepted the entry. */
  datatype AddResult = AddResult(accepted: bool, stock: seq<Account>)

  /** Valid entries are appended at the end of the stock; an invalid one is
      rejected and leaves the stock as it was. */
  function AddStock(stock: seq<Account>, entry: string): (r: AddResult)
    ensures r.accepted <==> HasTwoSeps(entry)
    ensures !r.accepted ==> r.stock == stock
    ensures r.accepted ==>
              && |r.stock| == |stock| + 1
              && r.stock[..|stock|] == stock
              && EntryText(r.stock[|stock|]) == entry
              && NoSep(r.stock[|stock|].username)
              && NoSep(r.stock[|stock|].password)
  {
    match ParseEntry(entry)
    case None => AddResult(false, stock)
    case Some(a) => AddResult(true, Append(stock, a))
  }
}

=== FILE: Common.dfy ===
/** Small shared vocabulary: an optional value, ASCII case folding and
    decimal rendering of naturals. */
module Common {

  /** The conventional Some/None datatype, used for Python's `None` results. */
  datatype Option<+T> = None | Some(value: T)

  /** Lower-cases one character. Only ASCII letters are folded; Python's full
      Unicode `str.lower()` is not modelled. */
  function LowerChar(c: char): (d: char)
    ensures 'A' <= c <= 'Z' ==> 'a' <= d <= 'z' && d as int == c as int + 32
    ensures !('A' <= c <= 'Z') ==> d == c
  {
    if 'A' <= c <= 'Z' then (c as int + 32) as char else c
  }

  /** Upper-cases one character (ASCII letters only). */
  function UpperChar(c: char): (d: char)
    ensures 'a' <= c <= 'z' ==> 'A' <= d <= 'Z' && d as int == c as int - 32
    ensures !('a' <= c <= 'z') ==> d == c
  {
    if 'a' <= c <= 'z' then (c as int - 32) as char else c
  }

  function Lower(s: string): (r: string)
    ensures |r| == |s|
    ensures forall i :: 0 <= i < |s| ==> r[i] == LowerChar(s[i])
  {
    seq(|s|, i requires 0 <= i < |s| => LowerChar(s[i]))
  }

  function Upper(s: string): (r: string)
    ensures |r| == |s|
    ensures forall i :: 0 <= i < |s| ==> r[i] == UpperChar(s[i])
  {
    seq(|s|, i requires 0 <= i < |s| => UpperChar(s[i]))
  }

  /** Case-insensitive equality as `a.lower() == b.lower()`. */
  predicate SameIgnoringCase(a: string, b: string)
  {
    Lower(a) == Lower(b)
  }

  predicate IsDigit(c: char)
  {
    '0' <= c <= '9'
  }

  function DigitChar(d: nat): (c: char)
    requires d < 10
    ensures IsDigit(c)
    ensures c as int - '0' as int == d
  {
    ('0' as int + d) as char
  }

  /** Python's `str(n)` for a natural number: decimal digits, no leading zero. */
  function Decimal(n: nat): (r: string)
    ensures |r| >= 1
    ensures forall i :: 0 <= i < |r| ==> IsDigit(r[i])
    decreases n
  {
    if n < 10 then [DigitChar(n)] else Decimal(n / 10) + [DigitChar(n % 10)]
  }

  /** Reads a string of decimal digits back as a number. */
  function DecimalValue(s: string): nat
    requires forall i :: 0 <= i < |s| ==> IsDigit(s[i])
    decreases |s|
  {
    if |s| == 0 then 0
    else
      assert IsDigit(s[|s| - 1]);
      10 * DecimalValue(s[..|s| - 1]) + (s[|s| - 1] as int - '0' as int)
  }

  /** Rendering a number in decimal loses nothing: reading it back gives the
      number, so distinct counts render as distinct strings. */
  lemma {:induction false} DecimalRoundTrip(n: nat)
    ensures DecimalValue(Decimal(n)) == n
    decreases n
  {
    var r := Decimal(n);
    if n >= 10 {
      DecimalRoundTrip(n / 10);
      assert r[..|r| - 1] == Decimal(n / 10);
    }
  }
}

=== FILE: Fulfillment.dfy ===
/** The purchase flow of bot.py: the stock checks of /buy, the
    `monitor_and_deliver` polling loop with its delivery and compensation,
    and the free /test delivery. The bot runs on one cooperative event
    loop, and no `await` separates a check from the mutation it guards, so
    each step is modelled as one sequential state change. */
module Fulfillment {
  import opened Common
  import opened StockPool
  import opened Payments
  import opened OrderLedger
  import opened Reports

  /** The three containers the purchase flow shares: `stock`,
      `used_purchase_ids` and `purchase_history`. */
  datatype Shop = Shop(stock: seq<Account>, used: set<PurchaseId>, ledger: Ledger)

  /** One watched purchase: the Discord buyer, the Roblox name and id the
      payment must come from, the quantity, and the order id the delivery
      will be filed under (eight random characters from A-Z and 0-9 in the
      bot; here a parameter). */
  datatype Request = Request(
    buyer: BuyerId,
    robloxUsername: string,
    userId: int,
    quantity: nat,
    orderId: string)

  /** Where in the delivery block of bot.py an exception was raised: before
      the DM went out (opening the DM channel, building the files, sending
      it); after the DM, and after a new buyer's empty history list was
      created, but before the order was appended (building the order record,
      for instance `sale.get('currency', {}).get('amount', 0)` on a sale
      whose `currency` is null); or after the order was filed (the
      confirmation follow-up or the webhook post). */
  datatype Failure = BeforeDm | BeforeRecord | AfterRecord

  /** How the Discord side of a delivery went, which the model does not
      see: everything went through, or the delivery block raised at some
      stage and was caught. The handler sends a follow-up message before it
      puts the accounts back; `handlerRaised` says that this message raised
      too, so the accounts were never put back. */
  datatype Delivery = Sent | Failed(at: Failure, handlerRaised: bool)
  {
    /** The DM with the accounts reached the buyer; the buyer is then also
        made a key of the purchase history. */
    predicate DmSent()
    {
      Sent? || !at.BeforeDm?
    }

    /** The order was appended to the purchase history. */
    predicate Recorded()
    {
      Sent? || at.AfterRecord?
    }

    /** The handed-out accounts were put back into stock. */
    predicate Restored()
    {
      Failed? && !handlerRaised
    }
  }

  /** How one monitor ends. */
  datatype Outcome =
    | TimedOut
    | StockDepleted(sale: Sale)
    | Finished(sale: Sale, delivery: Delivery)
  {
    predicate Confirmed()
    {
      !TimedOut?
    }
  }

  /** A finished monitor: its outcome, the shop after it, and how many
      times it checked the feed. */
  datatype Run = Run(outcome: Outcome, shop: Shop, polls: nat)

  /** `max_attempts`: one check every thirty seconds for thirty minutes. */
  const MaxAttempts: nat := 60

  /** The feed snapshot the given poll sees. A poll without a snapshot
      sees an empty feed, which is what `get_recent_sales` returns when the
      request fails. */
  function Snapshot(feeds: seq<seq<Sale>>, attempt: nat): seq<Sale>
  {
    if attempt < |feeds| then feeds[attempt] else []
  }

  /** The purchase check the monitor makes on the given poll. */
  function CheckAt(used: set<PurchaseId>, userId: int, feeds: seq<seq<Sale>>, attempt: nat): Option<Sale>
  {
    CheckUserPurchase(Snapshot(feeds, attempt), used, userId)
  }

  /** The order record filed for a delivery (`purchase_data`). */
  function OrderFor(req: Request, sale: Sale, accounts: seq<Account>): Order
  {
    Order(req.orderId, accounts, req.quantity, Robux(sale), req.robloxUsername, req.buyer)
  }

  /** Every account the shop accounts for: those in stock plus those the
      ledger records as delivered. */
  function Holdings(shop: Shop): multiset<Account>
  {
    multiset(shop.stock) + LedgerAccounts(shop.ledger)
  }

  /** What happens once a sale is confirmed and its id claimed: the stock
      length check, the withdrawal from the front, the history record and
      the compensation. */
  function Deliver(shop: Shop, req: Request, sale: Sale, delivery: Delivery): (r: (Outcome, Shop))
    ensures r.1.used == shop.used
    ensures r.0 == StockDepleted(sale) <==> |shop.stock| < req.quantity
    ensures r.0 != StockDepleted(sale) ==> r.0 == Finished(sale, delivery)
    ensures r.0.StockDepleted? ==> r.1 == shop
    ensures r.0.Finished? && !delivery.Restored() ==>
              && shop.stock == shop.stock[..req.quantity] + r.1.stock
              && |r.1.stock| == |shop.stock| - req.quantity
    ensures r.0.Finished? && delivery.Restored() ==>
              && r.1.stock == shop.stock[req.quantity..] + shop.stock[..req.quantity]
              && multiset(r.1.stock) == multiset(shop.stock)
    ensures r.0.Finished? && delivery.Recorded() ==>
              Lookup(r.1.ledger, req.buyer)
                == Some(OrdersOf(shop.ledger, req.buyer) + [OrderFor(req, sale, shop.stock[..req.quantity])])
    ensures r.0.Finished? && delivery.DmSent() ==>
              Buyers(r.1.ledger)
                == if req.buyer in Buyers(shop.ledger) then Buyers(shop.ledger) else Buyers(shop.ledger) + [req.buyer]
    ensures r.0.Finished? && delivery.DmSent() && !delivery.Recorded() ==>
              && Lookup(r.1.ledger, req.buyer) == Some(OrdersOf(shop.ledger, req.buyer))
              && forall b :: OrdersOf(r.1.ledger, b) == OrdersOf(shop.ledger, b)
    ensures r.0.Finished? && !delivery.DmSent() ==> r.1.ledger == shop.ledger
    ensures forall b :: b != req.buyer ==> Lookup(r.1.ledger, b) == Lookup(shop.ledger, b)
  {
    match Withdraw(shop.stock, req.quantity)
    case None => (StockDepleted(sale), shop)
    case Some(w) =>
      var order := OrderFor(req, sale, w.taken);
      var ledger :=
        if delivery.Recorded() then Record(shop.ledger, req.buyer, order)
        else if delivery.DmSent() then Open(shop.ledger, req.buyer)
        else shop.ledger;
      var stock := if delivery.Restored() then Restore(w.rest, w.taken) else w.rest;
      WithdrawThenRestore(shop.stock, req.quantity);
      RecordAppendsOrder(shop.ledger, req.buyer, order);
      OpenKeepsOrders(shop.ledger, req.buyer, req.buyer);
      assert forall b :: b != req.buyer ==> Lookup(ledger, b) == Lookup(shop.ledger, b) by {
        forall b | b != req.buyer
          ensures Lookup(ledger, b) == Lookup(shop.ledger, b)
        {
          RecordKeepsOthers(shop.ledger, req.buyer, order, b);
          OpenKeepsOrders(shop.ledger, req.buyer, b);
        }
      }
      assert forall b :: OrdersOf(Open(shop.ledger, req.buyer), b) == OrdersOf(shop.ledger, b) by {
        forall b
          ensures OrdersOf(Open(shop.ledger, req.buyer), b) == OrdersOf(shop.ledger, b)
        {
          OpenKeepsOrders(shop.ledger, req.buyer, b);
        }
      }
      (Finished(sale, delivery), Shop(stock, shop.used, ledger))
  }

  /** Stock plus the accounts the ledger lists as delivered is unchanged
      when the order was filed and the accounts not put back, or the other
      way round, and by a stop at the stock check. It grows by the
      handed-out accounts when they were both filed and put back, and
      shrinks by them when neither happened: the handler's own follow-up
      raised before the accounts were returned. */
  lemma DeliverConservation(shop: Shop, req: Request, sale: Sale, delivery: Delivery)
    ensures var r := Deliver(shop, req, sale, delivery);
            !r.0.Finished? || delivery.Recorded() != delivery.Restored() ==> Holdings(r.1) == Holdings(shop)
    ensures var r := Deliver(shop, req, sale, delivery);
            r.0.Finished? && delivery.Recorded() && delivery.Restored() ==>
              Holdings(r.1) == Holdings(shop) + multiset(shop.stock[..req.quantity])
    ensures var r := Deliver(shop, req, sale, delivery);
            r.0.Finished? && !delivery.Recorded() && !delivery.Restored() ==>
              Holdings(r.1) + multiset(shop.stock[..req.quantity]) == Holdings(shop)
  {
    if req.quantity <= |shop.stock| {
      var r := Deliver(shop, req, sale, delivery);
      var taken := shop.stock[..req.quantity];
      var rest := shop.stock[req.quantity..];
      var none: multiset<Account> := multiset{};
      assert multiset(shop.stock) == multiset(taken) + multiset(rest) by {
        assert shop.stock == taken + rest;
      }
      assert LedgerAccounts(r.1.ledger)
               == LedgerAccounts(shop.ledger) + (if delivery.Recorded() then multiset(taken) else none) by {
        if delivery.Recorded() {
          RecordAddsAccounts(shop.ledger, req.buyer, OrderFor(req, sale, taken));
        } else {
          OpenAddsNoAccounts(shop.ledger, req.buyer);
        }
      }
      assert multiset(r.1.stock) == multiset(rest) + (if delivery.Restored() then multiset(taken) else none);
      Balance(multiset(shop.stock), multiset(r.1.stock), LedgerAccounts(shop.ledger), LedgerAccounts(r.1.ledger),
              multiset(taken), multiset(rest), delivery.Recorded(), delivery.Restored());
    }
  }

  /** The bookkeeping behind a delivery: `taken` leaves stock and comes
      back once into the ledger if `filed` and once into stock if
      `returned`. */
  lemma Balance(stock: multiset<Account>, stock': multiset<Account>,
                ledger: multiset<Account>, ledger': multiset<Account>,
                taken: multiset<Account>, rest: multiset<Account>, filed: bool, returned: bool)
    requires stock == taken + rest
    requires ledger' == ledger + (if filed then taken else multiset{})
    requires stock' == rest + (if returned then taken else multiset{})
    ensures filed != returned ==> stock' + ledger' == stock + ledger
    ensures filed && returned ==> stock' + ledger' == stock + ledger + taken
    ensures !filed && !returned ==> stock' + ledger' + taken == stock + ledger
  {
  }

  /** Accounts the buyer already received in the DM can be back in stock,
      and sold again, whenever the handler put them back: a failure after
      the DM is compensated like one before it. */
  lemma SentAccountsRestocked(shop: Shop, req: Request, sale: Sale, delivery: Delivery)
    requires req.quantity <= |shop.stock| && delivery.DmSent() && delivery.Restored()
    ensures var r := Deliver(shop, req, sale, delivery);
            multiset(shop.stock[..req.quantity]) <= multiset(r.1.stock)
  {
    var r := Deliver(shop, req, sale, delivery);
    assert r.1.stock == shop.stock[req.quantity..] + shop.stock[..req.quantity];
  }

  /** A refused DM whose handler follow-up also raises loses the account:
      it is neither in stock nor filed as delivered. */
  lemma HandlerFailureLosesAccount()
    ensures var a := Account("alpha", "pw", "cookie");
            var shop := Shop([a], {}, []);
            var req := Request(10, "one", 1, 1, "AAAA0001");
            var r := Deliver(shop, req, Sale(Some("t1"), Some(1), Some(700)), Failed(BeforeDm, true));
            && r.1.stock == [] && r.1.ledger == []
            && Holdings(shop) == multiset{a} && Holdings(r.1) == multiset{}
  {
    var a := Account("alpha", "pw", "cookie");
    var shop := Shop([a], {}, []);
    assert LedgerAccounts([]) == multiset{};
    assert multiset(shop.stock) == multiset{a};
  }

  /** A new buyer whose order record fails to build after the DM (in bot.py,
      for instance, a sale whose `currency` is null; here the `Delivery`
      parameter says the failure came at that stage) is left in the history
      with no orders: /topbuyers lists them with zero totals, and
      /customerinfo finds them with zero totals and no recent orders. */
  lemma FailedRecordListsEmptyBuyer()
    ensures var a := Account("alpha", "pw", "cookie");
            var shop := Shop([a], {}, []);
            var req := Request(10, "one", 1, 1, "AAAA0001");
            var r := Deliver(shop, req, Sale(Some("t1"), Some(1), None), Failed(BeforeRecord, false));
            && r.1.stock == [a]
            && Lookup(r.1.ledger, 10) == Some([])
            && TopBuyers(r.1.ledger) == Some([Stats(10, 0, 0, 0)])
            && CustomerInfo(r.1.ledger, 10) == Some(CustomerReport(Stats(10, 0, 0, 0), []))
  {
    var a := Account("alpha", "pw", "cookie");
    var shop := Shop([a], {}, []);
    var req := Request(10, "one", 1, 1, "AAAA0001");
    var r := Deliver(shop, req, Sale(Some("t1"), Some(1), None), Failed(BeforeRecord, false));
    assert Buyers(r.1.ledger) == [10];
    assert r.1.ledger == [Entry(10, [])];
  }

  /** A confirming poll: its index and the sale it found. */
  datatype Match = Match(poll: nat, sale: Sale)

  /** What each of the `MaxAttempts` polls finds, every poll checked
      against the used set the monitor started with. In bot.py another
      monitor can claim ids while this one sleeps between polls; the model
      runs monitors one after another (see `MoreUsedFewerMatches` for why a
      larger set only removes matches). */
  function Polls(used: set<PurchaseId>, userId: int, feeds: seq<seq<Sale>>): (r: seq<Option<Sale>>)
    ensures |r| == MaxAttempts
    ensures forall i :: 0 <= i < MaxAttempts ==> r[i] == CheckAt(used, userId, feeds, i)
  {
    seq(MaxAttempts, i requires 0 <= i < MaxAttempts => CheckAt(used, userId, feeds, i))
  }

  /** The polling from the given attempt on: stop at a poll that found a
      sale, otherwise wait and try the next one, until the polls run out. */
  function FirstHit(polls: seq<Option<Sale>>, attempt: nat): (r: Option<Match>)
    requires attempt <= |polls|
    ensures r.Some? ==> attempt <= r.value.poll < |polls|
    decreases |polls| - attempt
  {
    if attempt == |polls| then None
    else if polls[attempt].Some? then Some(Match(attempt, polls[attempt].value))
    else FirstHit(polls, attempt + 1)
  }

  /** The polling stops at the first poll, from `attempt` on, that found a
      sale, and finds nothing exactly when no remaining poll does. */
  lemma {:induction false} FirstHitSpec(polls: seq<Option<Sale>>, attempt: nat)
    requires attempt <= |polls|
    ensures var r := FirstHit(polls, attempt);
            && (r.None? <==> forall i :: attempt <= i < |polls| ==> polls[i].None?)
            && (r.Some? ==> polls[r.value.poll] == Some(r.value.sale))
            && (r.Some? ==> forall i :: attempt <= i < r.value.poll ==> polls[i].None?)
    decreases |polls| - attempt
  {
    if attempt < |polls| && polls[attempt].None? {
      FirstHitSpec(polls, attempt + 1);
    }
  }

  /** The first poll of a monitor that confirms a payment, if any. */
  function FirstConfirmation(used: set<PurchaseId>, userId: int, feeds: seq<seq<Sale>>): (r: Option<Match>)
    ensures r.Some? ==> r.value.poll < MaxAttempts
  {
    FirstHit(Polls(used, userId, feeds), 0)
  }

  /** The poll that found `sale`: its id is claimed
      (`used_purchase_ids.add`) and the delivery runs. */
  function Confirm(shop: Shop, req: Request, sale: Sale, delivery: Delivery, poll: nat): (r: Run)
    ensures r.polls == poll + 1
    ensures r.shop.used == shop.used + {sale.idHash}
    ensures r.outcome.Confirmed() && r.outcome.sale == sale
    ensures r.outcome.StockDepleted? <==> |shop.stock| < req.quantity
    ensures r.outcome.StockDepleted? ==> r.shop.stock == shop.stock && r.shop.ledger == shop.ledger
  {
    var claimed := shop.(used := Claim(shop.used, sale));
    var step := Deliver(claimed, req, sale, delivery);
    Run(step.0, step.1, poll + 1)
  }

  /** A whole `monitor_and_deliver` run: poll until the first confirmation
      or until the polls run out. */
  function Monitor(shop: Shop, req: Request, feeds: seq<seq<Sale>>, delivery: Delivery): Run
  {
    var first := FirstConfirmation(shop.used, req.userId, feeds);
    if first.None? then Run(TimedOut, shop, MaxAttempts)
    else Confirm(shop, req, first.value.sale, delivery, first.value.poll)
  }

  /** What a monitor run guarantees: at most sixty polls; a timeout exactly
      when no poll found a payment, and it changes nothing; a confirmation
      claims exactly the id of a sale that pays for this buyer and was not
      used before, found on the first poll that had one; the stock check
      fails exactly when the stock is short, and then only the id is
      claimed. */
  lemma MonitorSpec(shop: Shop, req: Request, feeds: seq<seq<Sale>>, delivery: Delivery)
    ensures var r := Monitor(shop, req, feeds, delivery);
            && 1 <= r.polls <= MaxAttempts
            && shop.used <= r.shop.used
            && (r.outcome.TimedOut? <==>
                  forall i :: 0 <= i < MaxAttempts ==> CheckAt(shop.used, req.userId, feeds, i).None?)
            && (r.outcome.TimedOut? ==> r.shop == shop && r.polls == MaxAttempts)
            && (r.outcome.Confirmed() ==> CheckAt(shop.used, req.userId, feeds, r.polls - 1) == Some(r.outcome.sale))
            && (r.outcome.Confirmed() ==>
                  forall i :: 0 <= i < r.polls - 1 ==> CheckAt(shop.used, req.userId, feeds, i).None?)
            && (r.outcome.Confirmed() ==> Eligible(r.outcome.sale, shop.used, req.userId))
            && (r.outcome.Confirmed() ==> r.shop.used == shop.used + {r.outcome.sale.idHash})
            && (r.outcome.StockDepleted? <==> r.outcome.Confirmed() && |shop.stock| < req.quantity)
            && (r.outcome.StockDepleted? ==> r.shop.stock == shop.stock && r.shop.ledger == shop.ledger)
  {
    var polls := Polls(shop.used, req.userId, feeds);
    FirstHitSpec(polls, 0);
  }

  /** The body of the confirming poll as bot.py writes it: claim the id,
      check the length, take from the front, make the buyer a key of the
      history and then file the order if the block got that far, and put
      the accounts back if it raised and the handler reached
      `stock.extend`. */
  method ConfirmAndDeliver(shop: Shop, req: Request, sale: Sale, delivery: Delivery, attempt: nat) returns (run: Run)
    ensures run == Confirm(shop, req, sale, delivery, attempt)
  {
    var used := shop.used + {sale.idHash};
    if |shop.stock| < req.quantity {
      return Run(StockDepleted(sale), shop.(used := used), attempt + 1);
    }
    var accounts := shop.stock[..req.quantity];
    var stock := shop.stock[req.quantity..];
    var ledger := shop.ledger;
    if delivery.DmSent() {
      ledger := Open(ledger, req.buyer);
    }
    if delivery.Recorded() {
      RecordAfterOpen(shop.ledger, req.buyer, OrderFor(req, sale, accounts));
      ledger := Record(ledger, req.buyer, OrderFor(req, sale, accounts));
    }
    if delivery.Restored() {
      stock := stock + accounts;
    }
    return Run(Finished(sale, delivery), Shop(stock, used, ledger), attempt + 1);
  }

  /** The polling loop as bot.py writes it: check the feed, and on a miss
      wait for the next attempt, for at most `MaxAttempts` attempts. */
  method WaitForPayment(used: set<PurchaseId>, userId: int, feeds: seq<seq<Sale>>) returns (m: Option<Match>)
    ensures m == FirstConfirmation(used, userId, feeds)
  {
    var attempt := 0;
    while attempt < MaxAttempts
      invariant attempt <= MaxAttempts
      invariant FirstHit(Polls(used, userId, feeds), attempt) == FirstConfirmation(used, userId, feeds)
      decreases MaxAttempts - attempt
    {
      var found := CheckAt(used, userId, feeds, attempt);
      if found.Some? {
        return Some(Match(attempt, found.value));
      }
      attempt := attempt + 1;
    }
    return None;
  }

  /** `monitor_and_deliver`: poll, then either give up or deliver; it
      computes the run `Monitor` describes. */
  method MonitorAndDeliver(shop: Shop, req: Request, feeds: seq<seq<Sale>>, delivery: Delivery) returns (run: Run)
    ensures run == Monitor(shop, req, feeds, delivery)
  {
    var m := WaitForPayment(shop.used, req.userId, feeds);
    if m.None? {
      return Run(TimedOut, shop, MaxAttempts);
    }
    run := ConfirmAndDeliver(shop, req, m.value.sale, delivery, m.value.poll);
  }

  /** Over a whole monitor run, accounts are conserved unless the delivery
      failed and its compensation went wrong: filed and put back (counted
      twice), or neither filed nor put back (lost). */
  lemma MonitorConservation(shop: Shop, req: Request, feeds: seq<seq<Sale>>, delivery: Delivery)
    ensures var r := Monitor(shop, req, feeds, delivery);
            !r.outcome.Finished? || delivery.Recorded() != delivery.Restored() ==> Holdings(r.shop) == Holdings(shop)
    ensures var r := Monitor(shop, req, feeds, delivery);
            r.outcome.Finished? && delivery.Recorded() && delivery.Restored() ==>
              Holdings(r.shop) == Holdings(shop) + multiset(shop.stock[..req.quantity])
    ensures var r := Monitor(shop, req, feeds, delivery);
            r.outcome.Finished? && !delivery.Recorded() && !delivery.Restored() ==>
              Holdings(r.shop) + multiset(shop.stock[..req.quantity]) == Holdings(shop)
  {
    match FirstConfirmation(shop.used, req.userId, feeds)
    case None =>
    case Some(m) => DeliverConservation(shop.(used := Claim(shop.used, m.sale)), req, m.sale, delivery);
  }

  /** A sale confirmed by one monitor can never be confirmed again: the
      next monitor, for any buyer and any feeds, either confirms a sale with
      a different id or none. */
  lemma NoDoubleSpend(shop: Shop, first: Request, feeds1: seq<seq<Sale>>, d1: Delivery,
                      second: Request, feeds2: seq<seq<Sale>>, d2: Delivery)
    ensures var r1 := Monitor(shop, first, feeds1, d1);
            var r2 := Monitor(r1.shop, second, feeds2, d2);
            r1.outcome.Confirmed() && r2.outcome.Confirmed() ==>
              r1.outcome.sale.idHash != r2.outcome.sale.idHash
  {
    var r1 := Monitor(shop, first, feeds1, d1);
    MonitorSpec(shop, first, feeds1, d1);
    MonitorSpec(r1.shop, second, feeds2, d2);
  }

  /** `if not user_id` in /buy: no Roblox id, or the id 0. */
  predicate KnownUser(userId: Option<int>)
  {
    userId.Some? && userId.value != 0
  }

  /** What the /buy command and its Validate button decide before any
      monitor starts. */
  datatype BuyCheck = UserNotFound | NotEnoughStock | StartMonitor(userId: int)

  /** The checks of /buy and of its Validate button: the Roblox user must
      exist and the stock must hold the quantity. Nothing is set aside: the
      stock is only read. */
  function CheckBuy(userId: Option<int>, stock: seq<Account>, quantity: nat): (r: BuyCheck)
    ensures r.UserNotFound? <==> !KnownUser(userId)
    ensures r.NotEnoughStock? <==> KnownUser(userId) && |stock| < quantity
    ensures r.StartMonitor? ==> Some(r.userId) == userId && quantity <= |stock|
  {
    if !KnownUser(userId) then UserNotFound
    else if |stock| < quantity then NotEnoughStock
    else StartMonitor(userId.value)
  }

  /** Because /buy reserves nothing, two buyers can both pass the stock
      check for the last account, both pay, and the second payment is
      consumed while the monitor reports the stock as depleted. */
  lemma SecondBuyerFindsStockDepleted()
    ensures var a := Account("alpha", "pw", "cookie");
            var shop := Shop([a], {}, []);
            var p1 := Sale(Some("t1"), Some(1), Some(700));
            var p2 := Sale(Some("t2"), Some(2), Some(700));
            var first := Request(10, "one", 1, 1, "AAAA0001");
            var second := Request(20, "two", 2, 1, "AAAA0002");
            var r1 := Monitor(shop, first, [[p1, p2]], Sent);
            var r2 := Monitor(r1.shop, second, [[p1, p2]], Sent);
            && CheckBuy(Some(1), shop.stock, 1).StartMonitor?
            && CheckBuy(Some(2), shop.stock, 1).StartMonitor?
            && r1.outcome == Finished(p1, Sent)
            && r2.outcome == StockDepleted(p2)
            && p2.idHash in r2.shop.used
            && r2.shop.stock == []
  {
    var a := Account("alpha", "pw", "cookie");
    var shop := Shop([a], {}, []);
    var p1 := Sale(Some("t1"), Some(1), Some(700));
    var p2 := Sale(Some("t2"), Some(2), Some(700));
    var first := Request(10, "one", 1, 1, "AAAA0001");
    var second := Request(20, "two", 2, 1, "AAAA0002");
    assert CheckAt(shop.used, first.userId, [[p1, p2]], 0) == Some(p1);
    var r1 := Monitor(shop, first, [[p1, p2]], Sent);
    assert r1.shop.stock == [];
    assert r1.shop.used == {p1.idHash};
    assert !Eligible(p1, r1.shop.used, 2) && Eligible(p2, r1.shop.used, 2);
    assert CheckUserPurchase([p1, p2], r1.shop.used, 2) == CheckUserPurchase([p2], r1.shop.used, 2);
    assert CheckAt(r1.shop.used, second.userId, [[p1, p2]], 0) == Some(p2);
  }

  /** What the free /test delivery reports: not enough stock, sent, failed
      with the accounts put back, or failed with the handler's follow-up
      raising before they were put back. */
  datatype TestOutcome = TestNotEnoughStock | TestSent | TestReturned | TestUnreturned

  /** /test: the same length check and front withdrawal, then the stock is
      restored if anything in the delivery block raised, even after the DM
      went out, unless the handler's own follow-up raised first. Nothing is
      filed, so the failure stage does not matter here. */
  function TestDelivery(stock: seq<Account>, quantity: nat, delivery: Delivery): (r: (TestOutcome, seq<Account>))
    ensures r.0.TestNotEnoughStock? <==> |stock| < quantity
    ensures r.0.TestNotEnoughStock? ==> r.1 == stock
    ensures r.0.TestSent? <==> quantity <= |stock| && delivery.Sent?
    ensures r.0.TestReturned? <==> quantity <= |stock| && delivery.Restored()
    ensures r.0.TestSent? || r.0.TestUnreturned? ==> stock == stock[..quantity] + r.1
    ensures r.0.TestReturned? ==>
              && r.1 == stock[quantity..] + stock[..quantity]
              && multiset(r.1) == multiset(stock)
  {
    match Withdraw(stock, quantity)
    case None => (TestNotEnoughStock, stock)
    case Some(w) =>
      WithdrawThenRestore(stock, quantity);
      if delivery.Sent? then (TestSent, w.rest)
      else if delivery.Restored() then (TestReturned, Restore(w.rest, w.taken))
      else (TestUnreturned, w.rest)
  }
}

=== FILE: OrderLedger.dfy ===
/** `purchase_history`: a dict from Discord user id to that buyer's list of
    order records. Python dicts iterate in insertion order, which the
    reports depend on (first match in /orderid, ties in /topbuyers), so the
    ledger is an insertion-ordered sequence of entries with distinct buyers. */
module OrderLedger {
  import opened Common
  import opened StockPool

  /** A Discord user id. */
  type BuyerId = int

  /** One delivered order (`purchase_data`); its timestamp and the Discord
      display name are left out. */
  datatype Order = Order(
    orderId: string,
    accounts: seq<Account>,
    quantity: nat,
    robux: int,
    robloxUsername: string,
    buyer: BuyerId)

  /** One key of `purchase_history` with its list of orders. */
  datatype Entry = Entry(buyer: BuyerId, orders: seq<Order>)

  type Ledger = seq<Entry>

  /** The keys of the dict in insertion order. */
  function Buyers(l: Ledger): (r: seq<BuyerId>)
    ensures |r| == |l|
    ensures forall i :: 0 <= i < |l| ==> r[i] == l[i].buyer
  {
    seq(|l|, i requires 0 <= i < |l| => l[i].buyer)
  }

  /** Dict keys are distinct. */
  predicate UniqueBuyers(l: Ledger)
  {
    forall i, j :: 0 <= i < j < |l| ==> l[i].buyer != l[j].buyer
  }

  /** `purchase_history.get(buyer)`: the buyer's orders, if the buyer has any. */
  function Lookup(l: Ledger, buyer: BuyerId): (r: Option<seq<Order>>)
    ensures r.None? <==> buyer !in Buyers(l)
    ensures r.Some? ==> exists i :: 0 <= i < |l| && l[i].buyer == buyer && l[i].orders == r.value
    decreases |l|
  {
    if |l| == 0 then None
    else if l[0].buyer == buyer then Some(l[0].orders)
    else
      var r := Lookup(l[1..], buyer);
      assert Buyers(l) == [l[0].buyer] + Buyers(l[1..]);
      assert r.Some? ==> (exists i :: 0 <= i < |l| && l[i].buyer == buyer && l[i].orders == r.value) by {
        if r.Some? {
          var i :| 0 <= i < |l[1..]| && l[1..][i].buyer == buyer && l[1..][i].orders == r.value;
          assert l[i + 1] == l[1..][i];
        }
      }
      r
  }

  /** The buyer's orders, empty for a buyer not in the ledger. */
  function OrdersOf(l: Ledger, buyer: BuyerId): seq<Order>
  {
    match Lookup(l, buyer)
    case Some(os) => os
    case None => []
  }

  /** Appending a delivered order to the buyer's list, creating the list
      first when the buyer is new (bot.py `purchase_history` update). A new
      buyer becomes the last key; the keys keep their order. */
  function Record(l: Ledger, buyer: BuyerId, o: Order): (r: Ledger)
    ensures Buyers(r) == if buyer in Buyers(l) then Buyers(l) else Buyers(l) + [buyer]
    decreases |l|
  {
    if |l| == 0 then
      var r := [Entry(buyer, [o])];
      assert Buyers(r) == [buyer];
      r
    else if l[0].buyer == buyer then
      var r := [Entry(buyer, l[0].orders + [o])] + l[1..];
      assert Buyers(r) == Buyers(l);
      r
    else
      var tail := Record(l[1..], buyer, o);
      BuyersPastHead(l, buyer, tail);
      [l[0]] + tail
  }

  /** The keys after a step of `Record` that passes the first entry. */
  lemma BuyersPastHead(l: Ledger, buyer: BuyerId, tail: Ledger)
    requires |l| > 0 && l[0].buyer != buyer
    requires Buyers(tail) == if buyer in Buyers(l[1..]) then Buyers(l[1..]) else Buyers(l[1..]) + [buyer]
    ensures Buyers([l[0]] + tail) == if buyer in Buyers(l) then Buyers(l) else Buyers(l) + [buyer]
  {
    assert Buyers(l) == [l[0].buyer] + Buyers(l[1..]);
    assert Buyers([l[0]] + tail) == [l[0].buyer] + Buyers(tail);
  }

  /** After recording, the buyer's list is the old list with the order at
      its end. */
  lemma {:induction false} RecordAppendsOrder(l: Ledger, buyer: BuyerId, o: Order)
    ensures Lookup(Record(l, buyer, o), buyer) == Some(OrdersOf(l, buyer) + [o])
    decreases |l|
  {
    if |l| > 0 && l[0].buyer != buyer {
      var r := Record(l, buyer, o);
      RecordAppendsOrder(l[1..], buyer, o);
      assert r[1..] == Record(l[1..], buyer, o);
      assert Lookup(r, buyer) == Lookup(r[1..], buyer);
      assert OrdersOf(l, buyer) == OrdersOf(l[1..], buyer);
    } else if |l| == 0 {
      assert OrdersOf(l, buyer) + [o] == [o];
    }
  }

  /** Recording an order for one buyer leaves every other buyer's list as
      it was. */
  lemma {:induction false} RecordKeepsOthers(l: Ledger, buyer: BuyerId, o: Order, other: BuyerId)
    requires other != buyer
    ensures Lookup(Record(l, buyer, o), other) == Lookup(l, other)
    decreases |l|
  {
    if |l| > 0 {
      var r := Record(l, buyer, o);
      assert r[1..] == if l[0].buyer == buyer then l[1..] else Record(l[1..], buyer, o);
      if l[0].buyer != buyer {
        RecordKeepsOthers(l[1..], buyer, o, other);
      }
    }
  }

  /** Recording keeps the dict keys distinct. */
  lemma {:induction false} RecordKeepsUnique(l: Ledger, buyer: BuyerId, o: Order)
    requires UniqueBuyers(l)
    ensures UniqueBuyers(Record(l, buyer, o))
  {
    var r := Record(l, buyer, o);
    var bs := Buyers(r);
    if buyer in Buyers(l) {
      assert bs == Buyers(l);
    } else {
      assert bs == Buyers(l) + [buyer];
    }
    forall i, j | 0 <= i < j < |r|
      ensures r[i].buyer != r[j].buyer
    {
      assert bs[i] == r[i].buyer && bs[j] == r[j].buyer;
    }
  }

  /** `if buyer not in purchase_history: purchase_history[buyer] = []`: the
      buyer becomes a key, with an empty list when new. */
  function Open(l: Ledger, buyer: BuyerId): (r: Ledger)
    ensures Buyers(r) == if buyer in Buyers(l) then Buyers(l) else Buyers(l) + [buyer]
  {
    if buyer in Buyers(l) then l
    else
      var r := l + [Entry(buyer, [])];
      assert Buyers(r) == Buyers(l) + [buyer];
      r
  }

  /** Looking a buyer up after an entry was added at the end. */
  lemma {:induction false} LookupAppend(l: Ledger, e: Entry, b: BuyerId)
    ensures Lookup(l + [e], b)
              == if b in Buyers(l) then Lookup(l, b) else if e.buyer == b then Some(e.orders) else None
    decreases |l|
  {
    if |l| > 0 {
      assert (l + [e])[1..] == l[1..] + [e];
      assert Buyers(l) == [l[0].buyer] + Buyers(l[1..]);
      LookupAppend(l[1..], e, b);
    } else {
      assert Buyers(l) == [];
      assert (l + [e])[1..] == [];
    }
  }

  /** Opening a buyer's entry files no order: every buyer's list is what it
      was, and the buyer is a key afterwards. */
  lemma OpenKeepsOrders(l: Ledger, buyer: BuyerId, b: BuyerId)
    ensures OrdersOf(Open(l, buyer), b) == OrdersOf(l, b)
    ensures b != buyer ==> Lookup(Open(l, buyer), b) == Lookup(l, b)
    ensures Lookup(Open(l, buyer), buyer) == Some(OrdersOf(l, buyer))
  {
    if buyer !in Buyers(l) {
      LookupAppend(l, Entry(buyer, []), b);
      LookupAppend(l, Entry(buyer, []), buyer);
    }
  }

  /** The accounts of a ledger with an entry added at the end. */
  lemma {:induction false} LedgerAccountsAppend(l: Ledger, e: Entry)
    ensures LedgerAccounts(l + [e]) == LedgerAccounts(l) + OrderAccounts(e.orders)
    decreases |l|
  {
    if |l| > 0 {
      assert (l + [e])[1..] == l[1..] + [e];
      LedgerAccountsAppend(l[1..], e);
    } else {
      assert (l + [e])[1..] == [];
    }
  }

  /** Opening an entry adds no delivered account. */
  lemma OpenAddsNoAccounts(l: Ledger, buyer: BuyerId)
    ensures LedgerAccounts(Open(l, buyer)) == LedgerAccounts(l)
  {
    if buyer !in Buyers(l) {
      LedgerAccountsAppend(l, Entry(buyer, []));
    }
  }

  /** A buyer missing from a non-empty ledger is missing from its head and
      from its tail. */
  lemma NotInHeadOrTail(l: Ledger, buyer: BuyerId)
    requires |l| > 0 && buyer !in Buyers(l)
    ensures l[0].buyer != buyer && buyer !in Buyers(l[1..])
  {
    assert Buyers(l) == [l[0].buyer] + Buyers(l[1..]);
  }

  /** A new buyer's order goes into a new last entry. */
  lemma {:induction false} RecordNewBuyer(l: Ledger, buyer: BuyerId, o: Order)
    requires buyer !in Buyers(l)
    ensures Record(l, buyer, o) == l + [Entry(buyer, [o])]
    decreases |l|
  {
    if |l| > 0 {
      NotInHeadOrTail(l, buyer);
      RecordNewBuyer(l[1..], buyer, o);
      assert Record(l, buyer, o) == [l[0]] + (l[1..] + [Entry(buyer, [o])]);
      assert l == [l[0]] + l[1..];
    }
  }

  /** Re-attaching the head to the tail with an element added at the end. */
  lemma HeadTailSnoc<T>(s: seq<T>, x: T)
    requires |s| > 0
    ensures [s[0]] + (s[1..] + [x]) == s + [x]
  {
    assert s == [s[0]] + s[1..];
  }

  /** Recording past a first entry of another buyer, on a ledger with an
      entry added at the end. */
  lemma RecordPastHead(l: Ledger, buyer: BuyerId, os: seq<Order>, o: Order)
    requires |l| > 0 && l[0].buyer != buyer
    ensures Record(l + [Entry(buyer, os)], buyer, o) == [l[0]] + Record(l[1..] + [Entry(buyer, os)], buyer, o)
  {
    var m := l + [Entry(buyer, os)];
    assert m[0] == l[0];
    assert m[1..] == l[1..] + [Entry(buyer, os)];
  }

  /** An order for the buyer of the last entry, found nowhere before it, goes
      onto that entry. */
  lemma {:induction false} RecordOntoLast(l: Ledger, buyer: BuyerId, os: seq<Order>, o: Order)
    requires buyer !in Buyers(l)
    ensures Record(l + [Entry(buyer, os)], buyer, o) == l + [Entry(buyer, os + [o])]
    decreases |l|
  {
    if |l| > 0 {
      NotInHeadOrTail(l, buyer);
      RecordPastHead(l, buyer, os, o);
      RecordOntoLast(l[1..], buyer, os, o);
      HeadTailSnoc(l, Entry(buyer, os + [o]));
    } else {
      assert l + [Entry(buyer, os)] == [Entry(buyer, os)];
    }
  }

  /** Creating the key first and appending the order then is the same as
      recording the order. */
  lemma RecordAfterOpen(l: Ledger, buyer: BuyerId, o: Order)
    ensures Record(Open(l, buyer), buyer, o) == Record(l, buyer, o)
  {
    if buyer !in Buyers(l) {
      var grown := l + [Entry(buyer, [])];
      assert Open(l, buyer) == grown;
      RecordNewBuyer(l, buyer, o);
      RecordOntoLast(l, buyer, [], o);
      assert [] + [o] == [o];
    }
  }

  /** `sum(p['quantity'] for p in purchases)`. */
  function TotalQuantity(os: seq<Order>): int
    decreases |os|
  {
    if |os| == 0 then 0 else os[0].quantity + TotalQuantity(os[1..])
  }

  /** `sum(p['robux'] for p in purchases)`. */
  function TotalRobux(os: seq<Order>): int
    decreases |os|
  {
    if |os| == 0 then 0 else os[0].robux + TotalRobux(os[1..])
  }

  /** Both running sums grow by exactly the appended order's values. */
  lemma {:induction false} TotalsAppend(os: seq<Order>, o: Order)
    ensures TotalQuantity(os + [o]) == TotalQuantity(os) + o.quantity
    ensures TotalRobux(os + [o]) == TotalRobux(os) + o.robux
    decreases |os|
  {
    if |os| > 0 {
      assert (os + [o])[1..] == os[1..] + [o];
      TotalsAppend(os[1..], o);
    }
  }

  /** The per-buyer figures /topbuyers and /customerinfo report. */
  datatype Stats = Stats(buyer: BuyerId, accounts: int, robux: int, purchases: nat)

  function StatsOf(e: Entry): Stats
  {
    Stats(e.buyer, TotalQuantity(e.orders), TotalRobux(e.orders), |e.orders|)
  }

  /** The stats of a buyer, with a buyer absent from the ledger at zero. */
  function BuyerTotals(l: Ledger, buyer: BuyerId): Stats
  {
    StatsOf(Entry(buyer, OrdersOf(l, buyer)))
  }

  /** Recording an order moves the buyer's totals by exactly that order:
      its quantity, its Robux and one more purchase; every other buyer's
      totals stay as they were. */
  lemma {:induction false} RecordUpdatesTotals(l: Ledger, buyer: BuyerId, o: Order, other: BuyerId)
    requires other != buyer
    ensures var before := BuyerTotals(l, buyer);
            var after := BuyerTotals(Record(l, buyer, o), buyer);
            && after.accounts == before.accounts + o.quantity
            && after.robux == before.robux + o.robux
            && after.purchases == before.purchases + 1
    ensures BuyerTotals(Record(l, buyer, o), other) == BuyerTotals(l, other)
  {
    RecordAppendsOrder(l, buyer, o);
    RecordKeepsOthers(l, buyer, o, other);
    TotalsAppend(OrdersOf(l, buyer), o);
  }

  /** Every account handed out in a list of orders. */
  function OrderAccounts(os: seq<Order>): multiset<Account>
    decreases |os|
  {
    if |os| == 0 then multiset{} else multiset(os[0].accounts) + OrderAccounts(os[1..])
  }

  /** Every account the ledger records as delivered. */
  function LedgerAccounts(l: Ledger): multiset<Account>
    decreases |l|
  {
    if |l| == 0 then multiset{} else OrderAccounts(l[0].orders) + LedgerAccounts(l[1..])
  }

  lemma {:induction false} OrderAccountsAppend(os: seq<Order>, o: Order)
    ensures OrderAccounts(os + [o]) == OrderAccounts(os) + multiset(o.accounts)
    decreases |os|
  {
    if |os| > 0 {
      assert (os + [o])[1..] == os[1..] + [o];
      OrderAccountsAppend(os[1..], o);
    } else {
      assert (os + [o])[1..] == [];
    }
  }

  /** Recording an order adds exactly its accounts to the delivered ones. */
  lemma {:induction false} RecordAddsAccounts(l: Ledger, buyer: BuyerId, o: Order)
    ensures LedgerAccounts(Record(l, buyer, o)) == LedgerAccounts(l) + multiset(o.accounts)
    decreases |l|
  {
    var r := Record(l, buyer, o);
    if |l| == 0 {
      assert r == [Entry(buyer, [o])];
      assert r[1..] == [];
      assert [o][1..] == [];
      assert OrderAccounts([o]) == multiset(o.accounts) + OrderAccounts([]);
      assert LedgerAccounts(r) == OrderAccounts([o]) + LedgerAccounts([]);
    } else if l[0].buyer == buyer {
      assert r[1..] == l[1..];
      OrderAccountsAppend(l[0].orders, o);
    } else {
      assert r[1..] == Record(l[1..], buyer, o);
      RecordAddsAccounts(l[1..], buyer, o);
    }
  }
}

=== FILE: Payments.dfy ===
/** Payment matching against the group's sale feed, and the set of sale ids
    that have already been used for a delivery. */
module Payments {
  import opened Common

  /** A sale's `idHash`. `sale.get('idHash')` is `None` when the key is
      missing, and that `None` is stored in the used set like any id. */
  type PurchaseId = Option<string>

  /** One record of the sale feed: its id, the buyer's numeric id
      (`agent.id`, absent when the key is missing) and the Robux amount
      (`currency.amount`, absent when the key is missing). */
  datatype Sale = Sale(idHash: PurchaseId, agentId: Option<int>, amount: Option<int>)

  /** `sale.get('currency', {}).get('amount', 0)`. */
  function Robux(s: Sale): int
  {
    match s.amount
    case Some(a) => a
    case None => 0
  }

  /** A sale that pays for `userId`'s purchase and has not funded one yet. */
  predicate Eligible(s: Sale, used: set<PurchaseId>, userId: int)
  {
    s.idHash !in used && s.agentId == Some(userId)
  }

  /** `check_user_purchase` over one feed snapshot: skips used ids and
      returns the first sale, in feed order, whose buyer is `userId`. The
      bot asks the sales API for the 10 most recent sales; the snapshot is
      whatever came back. */
  function CheckUserPurchase(feed: seq<Sale>, used: set<PurchaseId>, userId: int): (r: Option<Sale>)
    ensures r.None? <==> forall j :: 0 <= j < |feed| ==> !Eligible(feed[j], used, userId)
    ensures r.Some? ==> r.value in feed && Eligible(r.value, used, userId)
    ensures r.Some? ==>
              exists k :: 0 <= k < |feed|
                && feed[k] == r.value
                && Eligible(feed[k], used, userId)
                && forall j :: 0 <= j < k ==> !Eligible(feed[j], used, userId)
    decreases |feed|
  {
    if |feed| == 0 then None
    else if Eligible(feed[0], used, userId) then Some(feed[0])
    else
      var r := CheckUserPurchase(feed[1..], used, userId);
      assert r.Some? ==> (exists k :: 1 <= k < |feed|
                            && feed[k] == r.value
                            && Eligible(feed[k], used, userId)
                            && forall j :: 0 <= j < k ==> !Eligible(feed[j], used, userId)) by {
        if r.Some? {
          var k :| 0 <= k < |feed[1..]| && feed[1..][k] == r.value
                   && Eligible(feed[1..][k], used, userId)
                   && forall j :: 0 <= j < k ==> !Eligible(feed[1..][j], used, userId);
          assert forall j :: 1 <= j < k + 1 ==> feed[j] == feed[1..][j - 1];
        }
      }
      r
  }

  /** The id set sale `s` leaves behind once it is confirmed
      (`used_purchase_ids.add(purchase_id)`). */
  function Claim(used: set<PurchaseId>, s: Sale): (r: set<PurchaseId>)
    ensures used <= r && s.idHash in r
    ensures r - used <= {s.idHash}
  {
    used + {s.idHash}
  }

  /** The start-up seeding: every id of the fetched sales (the bot asks for
      the 50 most recent) joins the set. */
  function SeedUsed(used: set<PurchaseId>, sales: seq<Sale>): (r: set<PurchaseId>)
    ensures used <= r
    ensures forall k :: 0 <= k < |sales| ==> sales[k].idHash in r
    ensures forall id :: id in r ==> id in used || exists k :: 0 <= k < |sales| && sales[k].idHash == id
    decreases |sales|
  {
    if |sales| == 0 then used
    else
      var r := SeedUsed(used + {sales[0].idHash}, sales[1..]);
      assert forall k :: 1 <= k < |sales| ==> sales[k] == sales[1..][k - 1];
      r
  }

  /** Once an id is in the used set, no purchase check over any feed, for
      any buyer, returns a sale carrying that id. */
  lemma {:induction false} UsedIdNeverMatches(feed: seq<Sale>, used: set<PurchaseId>, userId: int, id: PurchaseId)
    requires id in used
    ensures CheckUserPurchase(feed, used, userId).Some? ==> CheckUserPurchase(feed, used, userId).value.idHash != id
  {
    var r := CheckUserPurchase(feed, used, userId);
    if r.Some? {
      var k :| 0 <= k < |feed| && feed[k] == r.value && Eligible(feed[k], used, userId);
    }
  }

  /** Enlarging the used set can only turn a match into no match, never the
      reverse: a feed with nothing for `userId` under the smaller set still
      has nothing under the larger one. */
  lemma {:induction false} MoreUsedFewerMatches(feed: seq<Sale>, used: set<PurchaseId>, more: set<PurchaseId>, userId: int)
    requires used <= more
    ensures CheckUserPurchase(feed, used, userId).None? ==> CheckUserPurchase(feed, more, userId).None?
  {
    if CheckUserPurchase(feed, used, userId).None? {
      assert forall j :: 0 <= j < |feed| ==> !Eligible(feed[j], more, userId) by {
        forall j | 0 <= j < |feed|
          ensures !Eligible(feed[j], more, userId)
        {
          assert !Eligible(feed[j], used, userId);
        }
      }
    }
  }
}

=== FILE: Reports.dfy ===
/** The read-only views over the order ledger: /topbuyers, /customerinfo,
    /orderid, and the page split used by /purchasehistory. */
module Reports {
  import opened Common
  import opened OrderLedger

  /** How many buyers /topbuyers shows. */
  const TopLimit: nat := 10

  /** How many recent orders /customerinfo shows. */
  const RecentLimit: nat := 5

  /** How many purchases one /purchasehistory page holds. */
  const PageSize: nat := 10

  /** Non-increasing by Robux spent. */
  predicate SortedByRobux(s: seq<Stats>)
  {
    forall i, j :: 0 <= i < j < |s| ==> s[i].robux >= s[j].robux
  }

  /** `buyer_stats`, one entry per buyer in the ledger's key order. */
  function AllStats(l: Ledger): (r: seq<Stats>)
    ensures |r| == |l|
    ensures forall i :: 0 <= i < |l| ==> r[i] == StatsOf(l[i])
  {
    seq(|l|, i requires 0 <= i < |l| => StatsOf(l[i]))
  }

  /** Places `x` before the first element that spent no more than it, so an
      element inserted later (earlier in the input) precedes its equals. */
  function Insert(x: Stats, s: seq<Stats>): (r: seq<Stats>)
    requires SortedByRobux(s)
    ensures SortedByRobux(r)
    ensures |r| == |s| + 1 && (r[0] == x || (|s| > 0 && r[0] == s[0]))
    decreases |s|
  {
    if |s| == 0 || s[0].robux <= x.robux then [x] + s
    else
      var tail := Insert(x, s[1..]);
      assert tail[0].robux <= s[0].robux;
      [s[0]] + tail
  }

  /** Inserting adds `x` and loses nothing. */
  lemma {:induction false} InsertPermutes(x: Stats, s: seq<Stats>)
    requires SortedByRobux(s)
    ensures multiset(Insert(x, s)) == multiset(s) + multiset{x}
    decreases |s|
  {
    if |s| > 0 && s[0].robux > x.robux {
      InsertPermutes(x, s[1..]);
      assert s == [s[0]] + s[1..];
    }
  }

  /** `sorted(..., key=robux, reverse=True)`, an insertion sort. */
  function SortByRobux(s: seq<Stats>): (r: seq<Stats>)
    ensures |r| == |s|
    ensures multiset(r) == multiset(s)
    ensures SortedByRobux(r)
    decreases |s|
  {
    if |s| == 0 then []
    else
      var rest := SortByRobux(s[1..]);
      InsertPermutes(s[0], rest);
      MultisetCons(s);
      Insert(s[0], rest)
  }

  /** A non-empty sequence's multiset is its head plus its tail's. */
  lemma MultisetCons<T>(s: seq<T>)
    requires |s| > 0
    ensures multiset(s) == multiset(s[1..]) + multiset{s[0]}
  {
    assert s == [s[0]] + s[1..];
  }

  function Min(a: nat, b: nat): nat
  {
    if a < b then a else b
  }

  /** /topbuyers: nothing for an empty ledger; otherwise the buyers' totals
      ordered by Robux spent, highest first, cut to the first ten. */
  function TopBuyers(l: Ledger): (r: Option<seq<Stats>>)
    ensures r.None? <==> |l| == 0
    ensures r.Some? ==> |r.value| == Min(|l|, TopLimit)
    ensures r.Some? ==> SortedByRobux(r.value)
  {
    if |l| == 0 then None
    else
      var sorted := SortByRobux(AllStats(l));
      Some(sorted[..Min(|l|, TopLimit)])
  }

  /** The buyers /topbuyers shows come from the ledger, and all of them are
      shown when there are at most ten. */
  lemma TopBuyersFromLedger(l: Ledger)
    requires |l| > 0
    ensures multiset(TopBuyers(l).value) <= multiset(AllStats(l))
    ensures |l| <= TopLimit ==> multiset(TopBuyers(l).value) == multiset(AllStats(l))
  {
    var sorted := SortByRobux(AllStats(l));
    var n := Min(|l|, TopLimit);
    assert TopBuyers(l).value == sorted[..n];
    MultisetSplit(sorted, n);
    if n == |sorted| {
      assert sorted[..n] == sorted;
    }
  }

  /** No buyer /topbuyers leaves out spent more than any buyer it shows. */
  lemma TopBuyersDominate(l: Ledger)
    requires |l| > 0
    ensures var shown := TopBuyers(l).value;
            forall x, i :: x in multiset(AllStats(l)) - multiset(shown) && 0 <= i < |shown|
              ==> x.robux <= shown[i].robux
  {
    var all := AllStats(l);
    var sorted := SortByRobux(all);
    var n := Min(|l|, TopLimit);
    var shown := sorted[..n];
    assert TopBuyers(l).value == shown;
    assert multiset(all) - multiset(shown) == multiset(sorted[n..]) by {
      MultisetSplit(sorted, n);
    }
    PrefixDominates(sorted, n);
    LeftOutBelow(multiset(all) - multiset(shown), multiset(sorted[n..]), shown);
  }

  /** Restating a bound on what was left out for an equal multiset. */
  lemma LeftOutBelow(out: multiset<Stats>, rest: multiset<Stats>, shown: seq<Stats>)
    requires out == rest
    requires forall x, i :: x in rest && 0 <= i < |shown| ==> x.robux <= shown[i].robux
    ensures forall x, i :: x in out && 0 <= i < |shown| ==> x.robux <= shown[i].robux
  {
  }

  /** In a sorted list, whatever follows a cut spent no more than anything
      before it. */
  lemma PrefixDominates(sorted: seq<Stats>, n: nat)
    requires SortedByRobux(sorted) && n <= |sorted|
    ensures forall x, i :: x in multiset(sorted[n..]) && 0 <= i < n ==> x.robux <= sorted[..n][i].robux
  {
    var rest := sorted[n..];
    forall x: Stats, i | x in multiset(rest) && 0 <= i < n
      ensures x.robux <= sorted[..n][i].robux
    {
      assert x in rest;
      var j :| 0 <= j < |rest| && rest[j] == x;
      assert sorted[n + j] == x && sorted[..n][i] == sorted[i];
    }
  }

  /** Cutting a sequence splits its multiset between the two pieces. */
  lemma MultisetSplit<T>(s: seq<T>, n: nat)
    requires n <= |s|
    ensures multiset(s[..n]) <= multiset(s)
    ensures multiset(s) - multiset(s[..n]) == multiset(s[n..])
  {
    assert s == s[..n] + s[n..];
  }

  /** `purchases[-5:]` walked in `reversed(...)` order: newest first. */
  function Recent(os: seq<Order>): (r: seq<Order>)
    ensures |r| == Min(|os|, RecentLimit)
    ensures forall i :: 0 <= i < |r| ==> r[i] == os[|os| - 1 - i]
  {
    var n := Min(|os|, RecentLimit);
    seq(n, i requires 0 <= i < n => os[|os| - 1 - i])
  }

  /** What /customerinfo reports for one buyer. */
  datatype CustomerReport = CustomerReport(totals: Stats, recent: seq<Order>)

  /** /customerinfo: nothing for a buyer without history; otherwise the
      buyer's totals and up to five newest orders, newest first. */
  function CustomerInfo(l: Ledger, buyer: BuyerId): (r: Option<CustomerReport>)
    ensures r.None? <==> buyer !in Buyers(l)
    ensures r.Some? ==> r.value.totals == BuyerTotals(l, buyer)
    ensures r.Some? ==> |r.value.recent| == Min(|OrdersOf(l, buyer)|, RecentLimit)
    ensures r.Some? ==> forall i :: 0 <= i < |r.value.recent| ==>
              r.value.recent[i] == OrdersOf(l, buyer)[|OrdersOf(l, buyer)| - 1 - i]
  {
    match Lookup(l, buyer)
    case None => None
    case Some(os) => Some(CustomerReport(StatsOf(Entry(buyer, os)), Recent(os)))
  }

  /** `purchase.get('order_id', '').upper() == order_id.upper()`. */
  predicate OrderMatches(o: Order, id: string)
  {
    Upper(o.orderId) == Upper(id)
  }

  /** The first order in `os` matching `id`, as an index. */
  function FindInOrders(os: seq<Order>, id: string): (r: Option<nat>)
    ensures r.None? <==> forall j :: 0 <= j < |os| ==> !OrderMatches(os[j], id)
    ensures r.Some? ==> r.value < |os| && OrderMatches(os[r.value], id)
    ensures r.Some? ==> forall j :: 0 <= j < r.value ==> !OrderMatches(os[j], id)
    decreases |os|
  {
    if |os| == 0 then None
    else if OrderMatches(os[0], id) then Some(0)
    else
      match FindInOrders(os[1..], id)
      case None => None
      case Some(k) => Some(k + 1)
  }

  /** Where /orderid found an order: entry index and position in its list. */
  datatype Found = Found(entry: nat, pos: nat)

  /** Position (i, j) comes before (i', j') in the nested scan. */
  predicate Before(i: nat, j: nat, i': nat, j': nat)
  {
    i < i' || (i == i' && j < j')
  }

  /** /orderid: the nested scan over buyers (key order) and their orders,
      stopping at the first order whose id matches ignoring case. */
  function FindOrder(l: Ledger, id: string): (r: Option<Found>)
    ensures r.None? <==>
              forall i, j :: 0 <= i < |l| && 0 <= j < |l[i].orders| ==> !OrderMatches(l[i].orders[j], id)
    ensures r.Some? ==> r.value.entry < |l| && r.value.pos < |l[r.value.entry].orders|
    ensures r.Some? ==> OrderMatches(l[r.value.entry].orders[r.value.pos], id)
    ensures r.Some? ==>
              forall i, j :: 0 <= i < |l| && 0 <= j < |l[i].orders| && Before(i, j, r.value.entry, r.value.pos)
                ==> !OrderMatches(l[i].orders[j], id)
    decreases |l|
  {
    if |l| == 0 then None
    else
      match FindInOrders(l[0].orders, id)
      case Some(j) => Some(Found(0, j))
      case None =>
        var rest := FindOrder(l[1..], id);
        assert forall i :: 1 <= i < |l| ==> l[i] == l[1..][i - 1];
        match rest
        case None => None
        case Some(f) => Some(Found(f.entry + 1, f.pos))
  }

  /** Page `k` of a listing: `s[10k : 10k + 10]`. */
  function Page<T>(s: seq<T>, k: nat): seq<T>
    requires k * PageSize < |s|
  {
    var start := k * PageSize;
    var stop := if start + PageSize < |s| then start + PageSize else |s|;
    s[start..stop]
  }

  /** The number of pages the footer prints: `(len - 1) // 10 + 1`. */
  function PageCount(n: nat): nat
    requires n > 0
  {
    (n - 1) / PageSize + 1
  }

  /** `for i in range(0, len(s), 10): s[i:i+10]`. */
  function Paginate<T>(s: seq<T>): (pages: seq<seq<T>>)
    ensures forall k :: 0 <= k < |pages| ==> 1 <= |pages[k]| <= PageSize
    decreases |s|
  {
    if |s| == 0 then []
    else if |s| <= PageSize then [s]
    else [s[..PageSize]] + Paginate(s[PageSize..])
  }

  /** Concatenates pages back into one listing. */
  function Flatten<T>(pages: seq<seq<T>>): seq<T>
    decreases |pages|
  {
    if |pages| == 0 then [] else pages[0] + Flatten(pages[1..])
  }

  /** Paging loses and reorders nothing: the pages concatenate to the
      listing, every page but the last is full, and there are as many pages
      as the footer announces. */
  lemma {:induction false} PaginateSound<T>(s: seq<T>)
    requires |s| > 0
    ensures Flatten(Paginate(s)) == s
    ensures |Paginate(s)| == PageCount(|s|)
    ensures forall k :: 0 <= k < |Paginate(s)| - 1 ==> |Paginate(s)[k]| == PageSize
    decreases |s|
  {
    var p := Paginate(s);
    if |s| > PageSize {
      var tail := Paginate(s[PageSize..]);
      PaginateSound(s[PageSize..]);
      assert p == [s[..PageSize]] + tail;
      assert p[1..] == tail;
      assert s == s[..PageSize] + s[PageSize..];
      assert forall k :: 1 <= k < |p| ==> p[k] == tail[k - 1];
    } else {
      assert p[1..] == [];
    }
  }

  /** Every page is exactly the slice `s[10k : 10k + 10]` the loop takes. */
  lemma {:induction false} PaginatePages<T>(s: seq<T>, k: nat)
    requires k < |Paginate(s)|
    ensures k * PageSize < |s|
    ensures Paginate(s)[k] == Page(s, k)
    decreases |s|
  {
    if |s| > PageSize && k > 0 {
      PaginatePages(s[PageSize..], k - 1);
      var t := s[PageSize..];
      var start := (k - 1) * PageSize;
      assert start + PageSize == k * PageSize;
      var stop := if start + PageSize < |t| then start + PageSize else |t|;
      assert Page(t, k - 1) == t[start..stop];
      assert Page(s, k) == s[PageSize + start..PageSize + stop];
      SliceOfDrop(s, PageSize, start, stop);
    }
  }

  /** Slicing what follows the first `d` elements is slicing the whole,
      shifted by `d`. */
  lemma SliceOfDrop<T>(s: seq<T>, d: nat, a: nat, b: nat)
    requires d <= |s| && a <= b <= |s| - d
    ensures s[d..][a..b] == s[d + a..d + b]
  {
  }
}

=== FILE: StockChannel.dfy ===
/** The pure decision inside `update_stock_channel`: which name the stock
    channel gets for a stock count, and which alert, if any, is posted. */
module StockChannel {
  import opened Common
  import opened StockPool

  /** The colour band of the channel name. */
  datatype Level = OutOfStock | Low | Healthy

  /** The largest count that still raises the low-stock alert. */
  const LowThreshold: nat := 3

  function LevelOf(count: nat): (lv: Level)
    ensures lv.OutOfStock? <==> count == 0
    ensures lv.Low? <==> 1 <= count <= LowThreshold
    ensures lv.Healthy? <==> count > LowThreshold
  {
    if count == 0 then OutOfStock
    else if count <= LowThreshold then Low
    else Healthy
  }

  /** The coloured circle that opens the channel name. */
  function Marker(lv: Level): char
  {
    match lv
    case OutOfStock => '\U{1F534}'
    case Low => '\U{1F7E1}'
    case Healthy => '\U{1F7E2}'
  }

  /** The channel name for a stock count; only counts of four or more are
      printed as a computed number. */
  function ChannelName(count: nat): (name: string)
    ensures |name| > 0 && name[0] == Marker(LevelOf(count))
  {
    if count == 0 then "\U{1F534} (OUT OF STOCK)"
    else if count == 1 then "\U{1F7E1} (1 ACCOUNT)"
    else if count == 2 then "\U{1F7E1} (2 ACCOUNTS)"
    else if count == 3 then "\U{1F7E1} (3 ACCOUNTS)"
    else [Marker(Healthy)] + " (" + Decimal(count) + " ACCOUNTS)"
  }

  /** The channel name tells the stock count exactly: distinct counts never
      share a name. */
  lemma {:induction false} ChannelNameInjective(a: nat, b: nat)
    requires ChannelName(a) == ChannelName(b)
    ensures a == b
  {
    var na, nb := ChannelName(a), ChannelName(b);
    assert Marker(LevelOf(a)) == na[0] == nb[0] == Marker(LevelOf(b));
    if a > LowThreshold && b > LowThreshold {
      var prefix := [Marker(Healthy)] + " (";
      var suffix := " ACCOUNTS)";
      assert na == prefix + Decimal(a) + suffix;
      assert nb == prefix + Decimal(b) + suffix;
      assert |Decimal(a)| == |Decimal(b)|;
      assert Decimal(a) == na[|prefix|..|na| - |suffix|];
      assert Decimal(b) == nb[|prefix|..|nb| - |suffix|];
      DecimalRoundTrip(a);
      DecimalRoundTrip(b);
    }
  }

  /** What is posted to the pending channel after a stock change. */
  datatype Alert = NoAlert | LowStockAlert(count: nat) | OutOfStockAlert

  /** A low-stock alert for one to three accounts, an out-of-stock alert at
      zero, nothing otherwise. An alert is raised exactly when the channel
      is not in the healthy band. */
  function AlertFor(count: nat): (a: Alert)
    ensures a.OutOfStockAlert? <==> LevelOf(count).OutOfStock?
    ensures a.LowStockAlert? <==> LevelOf(count).Low?
    ensures a.NoAlert? <==> LevelOf(count).Healthy?
    ensures a.LowStockAlert? ==> a.count == count
  {
    if count <= LowThreshold && count > 0 then LowStockAlert(count)
    else if count == 0 then OutOfStockAlert
    else NoAlert
  }

  /** After /clearstock the channel shows the out-of-stock name its
      confirmation prompt announces, and the out-of-stock alert is posted. */
  lemma ClearShowsOutOfStock(stock: seq<Account>)
    ensures ChannelName(|Clear(stock).stock|) == "\U{1F534} (OUT OF STOCK)"
    ensures AlertFor(|Clear(stock).stock|) == OutOfStockAlert
  {
  }
}

=== FILE: StockPool.dfy ===
/** The in-memory stock list of bot.py: an ordered sequence of accounts that
    is withdrawn from the front, restored and appended at the back, searched
    by username and cleared. */
module StockPool {
  import opened Common

  /** One stock entry. The model treats it as an opaque record keyed by
      `username`; nothing about the password or cookie matters to the logic. */
  datatype Account = Account(username: string, password: string, cookie: string)

  /** The result of a successful withdrawal: the accounts handed out, in
      order, and what stays in stock. */
  datatype Withdrawal = Withdrawal(taken: seq<Account>, rest: seq<Account>)

  /** The length check followed by `quantity` calls of `stock.pop(0)`. */
  function Withdraw(stock: seq<Account>, quantity: nat): (r: Option<Withdrawal>)
    ensures r.None? <==> |stock| < quantity
    ensures r.Some? ==> |r.value.taken| == quantity && r.value.taken + r.value.rest == stock
  {
    if |stock| < quantity then None
    else Some(Withdrawal(stock[..quantity], stock[quantity..]))
  }

  /** Compensation after a failed delivery: `stock.extend(accounts)`. */
  function Restore(rest: seq<Account>, taken: seq<Account>): (r: seq<Account>)
    ensures |r| == |rest| + |taken|
    ensures r[..|rest|] == rest && r[|rest|..] == taken
  {
    rest + taken
  }

  /** A withdrawal followed by its compensation rotates the first `quantity`
      accounts to the back: the count and the multiset of accounts are as
      before the withdrawal, while the order is not. */
  lemma {:induction false} WithdrawThenRestore(stock: seq<Account>, quantity: nat)
    requires quantity <= |stock|
    ensures Withdraw(stock, quantity).Some?
    ensures var w := Withdraw(stock, quantity).value;
            var back := Restore(w.rest, w.taken);
            && back == stock[quantity..] + stock[..quantity]
            && |back| == |stock|
            && multiset(back) == multiset(stock)
  {
    var w := Withdraw(stock, quantity).value;
    assert w.taken == stock[..quantity] && w.rest == stock[quantity..] by {
      assert |w.taken| == quantity;
      assert w.taken + w.rest == stock;
      assert stock[..quantity] == (w.taken + w.rest)[..quantity];
    }
    assert stock == stock[..quantity] + stock[quantity..];
  }

  /** `stock.append(...)` from the administrative add. */
  function Append(stock: seq<Account>, a: Account): (r: seq<Account>)
    ensures |r| == |stock| + 1
    ensures r[..|stock|] == stock && r[|stock|] == a
  {
    stock + [a]
  }

  /** The comparison `acc['username'].lower() == username.lower()`. */
  predicate NameMatches(a: Account, name: string)
  {
    SameIgnoringCase(a.username, name)
  }

  /** The position of the first account whose username matches `name`
      ignoring case, as the `enumerate(stock)` scan finds it. */
  function FindAccount(stock: seq<Account>, name: string): (r: Option<nat>)
    ensures r.None? <==> forall i :: 0 <= i < |stock| ==> !NameMatches(stock[i], name)
    ensures r.Some? ==> r.value < |stock| && NameMatches(stock[r.value], name)
    ensures r.Some? ==> forall i :: 0 <= i < r.value ==> !NameMatches(stock[i], name)
    decreases |stock|
  {
    if |stock| == 0 then None
    else if NameMatches(stock[0], name) then Some(0)
    else
      match FindAccount(stock[1..], name)
      case None => None
      case Some(k) => Some(k + 1)
  }

  /** What /removestock leaves behind and which account it removed. */
  datatype Removal = Removal(stock: seq<Account>, removed: Option<Account>)

  /** Removes the first account whose username matches `name` ignoring case;
      with no match the stock is unchanged. */
  function RemoveByUsername(stock: seq<Account>, name: string): (r: Removal)
    ensures r.removed.None? <==> forall i :: 0 <= i < |stock| ==> !NameMatches(stock[i], name)
    ensures r.removed.None? ==> r.stock == stock
    ensures r.removed.Some? ==>
              exists i :: 0 <= i < |stock|
                && (forall j :: 0 <= j < i ==> !NameMatches(stock[j], name))
                && NameMatches(stock[i], name)
                && r.removed.value == stock[i]
                && r.stock == stock[..i] + stock[i + 1..]
  {
    match FindAccount(stock, name)
    case None => Removal(stock, None)
    case Some(i) => Removal(stock[..i] + stock[i + 1..], Some(stock[i]))
  }

  /** The stock after /clearstock and the count it reports as removed. */
  datatype Cleared = Cleared(stock: seq<Account>, removedCount: nat)

  /** `removed_count = len(stock)` then `stock.clear()`. */
  function Clear(stock: seq<Account>): (r: Cleared)
    ensures |r.stock| == 0
    ensures r.removedCount == |stock|
  {
    Cleared([], |stock|)
  }

  /** How many usernames the /stock listing shows. */
  const PreviewLimit: nat := 10

  /** The /stock listing: the usernames of the first ten accounts, in order,
      and how many more there are ("...and N more"). */
  datatype Preview = Preview(names: seq<string>, more: nat)

  /** No listing is produced for an empty stock (`if len(stock) > 0`). */
  function StockPreview(stock: seq<Account>): (r: Option<Preview>)
    ensures r.None? <==> |stock| == 0
    ensures r.Some? ==> |r.value.names| <= PreviewLimit
    ensures r.Some? ==> |r.value.names| + r.value.more == |stock|
    ensures r.Some? ==> r.value.more > 0 ==> |r.value.names| == PreviewLimit
    ensures r.Some? ==> forall i :: 0 <= i < |r.value.names| ==> r.value.names[i] == stock[i].username
  {
    if |stock| == 0 then None
    else
      var shown := if |stock| < PreviewLimit then |stock| else PreviewLimit;
      Some(Preview(seq(shown, i requires 0 <= i < shown => stock[i].username), |stock| - shown))
  }
}
